=== FILE: README.md ===
# RTM to Nextcloud converter — a Dafny model of the conversion engine

This project models the pure core of the Remember The Milk (RTM) to
Nextcloud Tasks converter. The core has two parts:

- the command-line engine `rtm_to_nextcloud.py`, which turns RTM task, list
  and note records into iCalendar VTODO blocks inside a VCALENDAR envelope
  (RFC 5545);
- the pure parts of the Textual front end `rtm_to_nextcloud_tui.py`: the
  per-list tally and the filter/group/assemble pass of its convert action.

The model is written as immutable datatypes and pure functions, plus one
method with a loop for the tally. It follows RFC 5545 where the code does:

- TEXT escaping and decoding: section 3.3.11;
- DATE and DATE-TIME forms: sections 3.3.4 and 3.3.5;
- CRLF line delimiting: section 3.1.

Modules, one per component:

| module | file | models |
|---|---|---|
| `Wrappers` | wrappers.dfy | `Option` |
| `Seqs` | seqs.dfy | flattening a sequence of sequences |
| `Text` | text.dfy | `'\r\n'.join`, and splitting at CRLF to read a document back |
| `Decimal` | decimal.dfy | zero-padded and plain decimal rendering of numbers |
| `Escape` | escape.dfy | `escape_ical_text`, and the section 3.3.11 decoding used to state its round trip |
| `Records` | records.dfy | task and note records, Python truthiness, completed/open counts |
| `Fields` | fields.dfy | `format_datetime`, `convert_priority`, `convert_recurrence` |
| `VTodo` | vtodo.dfy | `convert_task_to_vtodo` |
| `Filter` | filter.dfy | `should_include_task` |
| `Grouping` | grouping.dfy | the "append to `dict[key]`" grouping idiom as a stable partition |
| `GroupOrder` | group_order.dfy | the first-insertion iteration order of such a dictionary |
| `Calendar` | calendar.dfy | display name, sanitised file name, envelope, `notes_by_series` |
| `Pipeline` | pipeline.dfy | the filter/group/convert pass of `main` and `action_convert` |
| `Tally` | tally.dfy | the per-list counts of `load_data` |

Modelling choices:

- **Truthiness.** A timestamp or counter counts as set when it is present and
  non-zero. A text counts as set when it is present and non-empty.
- **The `name` field** is `Missing | Null | Present(s)`. The code uses
  `task.get('name', 'Untitled Task')`, so the placeholder appears only when
  the key is missing.
- **A VTODO block** is a sequence of `ContentLine(name, dateValue, value)`.
  `Render` produces the same text as the source's f-strings. The block is
  the concatenation of 17 per-property segments, in the order the code
  appends them. Each segment holds zero or one line. Hence every property
  appears at most once and always in that order.
- **The host's `datetime.fromtimestamp`** is a parameter
  `clock: int -> Civil`. It maps a millisecond timestamp to a valid local
  date and time. The model renders the result as `strftime` does.
- **The completion cutoff** compares `clock(date_completed)` with the cutoff
  date-time field by field. The cutoff has no sub-second part, so this
  decides `completed_dt < cutoff` exactly. No monotonicity assumption about
  the clock is needed.
- **`str.isalnum`** is a parameter `isAlnum: char -> bool`.
- **`tasks_by_list`** is a sequence of groups with distinct keys, in
  first-insertion order, because the conversion loop iterates it and
  Python's dictionaries iterate in that order (`GroupOrder.GroupByKeyOrder`).
- **`notes_by_series`** is only looked up, never iterated, so it is a Dafny
  `map`. `Calendar.NotesBySeriesIsGrouping` proves each entry equals the
  group the appending loop builds.

Behaviour of the code worth noting:

- A task whose list id resolves to a name gets `CATEGORIES:<list name>`,
  even without tags (rtm_to_nextcloud.py:151-158).
- The only vendor property is `X-RTM-POSTPONE-COUNT`
  (rtm_to_nextcloud.py:175-177).
- The `Untitled Task` placeholder is used only when the `name` key is
  missing. A null or empty name gives `SUMMARY:` with an empty value
  (rtm_to_nextcloud.py:81, 18-19).
- Two lists can get the same file name: sanitising is not injective, and an
  unknown list id `7` shows as `List-7`, which a real list may also be
  called. The later list's file then replaces the earlier one
  (rtm_to_nextcloud.py:337-360).

## Model

| member | source | states |
|---|---|---|
| Escape.EscapeText | rtm_to_nextcloud.py:16-25 | An absent text escapes to the empty string. A present text escapes to the one-pass escape, in which each `\`, `,`, `;` and newline becomes a two-character sequence and every other character stays as it is. |
| Escape.ReplaceChainIsSinglePass | rtm_to_nextcloud.py:20-24 | The four replacements applied in sequence, backslash first, equal the single-pass per-character escape. Backslashes added by later steps are never escaped again. |
| Escape.EscapePlainText | rtm_to_nextcloud.py:16-25 | Text without `\`, `,`, `;` or newline comes back unchanged. |
| Escape.EscapeNoLineBreak | rtm_to_nextcloud.py:24 | An escaped text contains no raw line break, so it stays on one content line. |
| Escape.EscapeRoundTrip | rtm_to_nextcloud.py:16-25 | Decoding the escaped text as one RFC 5545 TEXT value gives back the input exactly. |
| Escape.DecodeEscapedList | rtm_to_nextcloud.py:157 | Escaping each element and joining with `,` decodes, as a TEXT list, to exactly the elements in order. |
| Decimal.PadValue | rtm_to_nextcloud.py:33-40 | A zero-padded field of a number that fits the width reads back as that number. |
| Decimal.IntToDecimalValue | rtm_to_nextcloud.py:177 | The f-string rendering of an integer is a sign only for negatives, then digits that read back as the magnitude. |
| Fields.FormatDateTime | rtm_to_nextcloud.py:28-40 | The result is None exactly when the timestamp is absent or 0. Otherwise it has 15 characters (digits, `T` at index 8, digits) with a time of day, or 8 digits without one. |
| Fields.FormatDateTimeDecodes | rtm_to_nextcloud.py:33-40 | The digit fields of the rendered stamp read back as the clock's year, month, day and, with a time of day, hour, minute and second. |
| Fields.ConvertPriority | rtm_to_nextcloud.py:43-52 | P1 maps to 1, P2 to 5 and P3 to 9. Every other text maps to 0, both ways. |
| Fields.ConvertRecurrence | rtm_to_nextcloud.py:55-62 | The rule is returned exactly when it is set, and unchanged. |
| Records.CompletedPlusIncomplete | rtm_to_nextcloud.py:363-364 | The completed and open counts of a task sequence add up to its length. |
| VTodo.VTodoProps | rtm_to_nextcloud.py:65-180 | The block starts with `BEGIN:VTODO`, then `UID:rtm-<id>`, and ends with `END:VTODO`. Its properties come in the fixed emission order, each at most once. |
| VTodo.PropertyOfSegment | rtm_to_nextcloud.py:65-180 | A property is in the block exactly when the code's condition for it holds, at most once, and only with the value the code computes. |
| VTodo.RenderParts | rtm_to_nextcloud.py:67-180 | A content line's text is the property name, then `;VALUE=DATE` exactly when the line carries a date, then `:` and the value. |
| VTodo.VTodoStatus | rtm_to_nextcloud.py:114-121 | There is exactly one STATUS line: COMPLETED for a task with a completion time, NEEDS-ACTION otherwise. A COMPLETED line appears exactly with COMPLETED status and renders `date_completed` as a date-time. |
| VTodo.VTodoPriority | rtm_to_nextcloud.py:84-88 | A PRIORITY line appears exactly for P1, P2 and P3, without `;VALUE=DATE`, with the mapped value, which is positive. |
| VTodo.VTodoGranularity | rtm_to_nextcloud.py:90-112 | DUE and DTSTART appear exactly when their timestamps are set. Both carry `;VALUE=DATE` and an 8-digit date exactly when neither date has a time of day. Otherwise both carry a 15-character date-time, so they never disagree. DUE renders `date_due` and DTSTART renders `date_start` at that granularity. |
| VTodo.VTodoCreatedModified | rtm_to_nextcloud.py:123-133 | CREATED and LAST-MODIFIED appear exactly when set. They render `date_created` and `date_modified` as date-times without `;VALUE=DATE`. |
| VTodo.VTodoRelatedTo | rtm_to_nextcloud.py:74-78 | RELATED-TO appears exactly when `parent_id` is set, without `;VALUE=DATE`, and names `rtm-<parent_id>`. |
| VTodo.VTodoSummary | rtm_to_nextcloud.py:80-82 | There is exactly one SUMMARY line, without `;VALUE=DATE`. Its value decodes to the name, to the placeholder when the key is missing, or to the empty text for null. |
| VTodo.VTodoSummaryText | rtm_to_nextcloud.py:80-82 | The rendered block has a line `SUMMARY:<value>` whose value decodes to the task's title. |
| VTodo.VTodoRuleAndUrl | rtm_to_nextcloud.py:135-144 | RRULE appears exactly when the repeat rule is set and carries it verbatim. URL appears exactly when the URL is set and decodes to it. Neither has `;VALUE=DATE`. |
| VTodo.VTodoCategories | rtm_to_nextcloud.py:146-158 | CATEGORIES appears exactly when the task has tags or a resolvable non-empty list id, without `;VALUE=DATE`. It decodes to the tags in order, then the list name. |
| VTodo.VTodoDescription | rtm_to_nextcloud.py:160-173 | DESCRIPTION appears exactly when the task has a series id with an entry in the notes dictionary, and some note there has set content. It has no `;VALUE=DATE`. It decodes to the note texts of that series joined by a blank line. |
| VTodo.NoteTexts | rtm_to_nextcloud.py:164-169 | The note texts are non-empty, and there is at least one exactly when some note has set content. |
| VTodo.NoteTextsSingle | rtm_to_nextcloud.py:166-169 | A single note contributes its content exactly when that content is set. |
| VTodo.NoteTextsAppend | rtm_to_nextcloud.py:165-169 | The texts of two runs of notes are the texts of the first run followed by those of the second, so arrival order is kept. |
| VTodo.VTodoVendor | rtm_to_nextcloud.py:175-177 | The only `X-` property is X-RTM-POSTPONE-COUNT. It appears exactly when `postponed` is set, without `;VALUE=DATE`, and carries its decimal rendering. |
| VTodo.VTodoLines | rtm_to_nextcloud.py:67-72 | The rendered lines start with `BEGIN:VTODO` and `UID:rtm-<id>` and end with `END:VTODO`. If id, parent id and repeat rule hold no line break, no line does. |
| VTodo.VTodoBlock | rtm_to_nextcloud.py:179-180 | Under the same condition, splitting the CRLF-joined block at CRLF gives back exactly its lines. |
| Filter.ShouldInclude | rtm_to_nextcloud.py:183-212 | A task is included exactly when all four clauses hold: allow-list (when set), deny-list (when set), open (when only open tasks are wanted), not completed before the cutoff (when one is set). |
| Filter.CutoffSparesIncomplete | rtm_to_nextcloud.py:198-210 | For an open task only the two list clauses decide. The completion clauses never exclude it. |
| Filter.ExclusionWins | rtm_to_nextcloud.py:194-196 | A list named in the deny-list is excluded even when the allow-list names it too. |
| Filter.UnknownListAllowed | rtm_to_nextcloud.py:187-192 | A task whose list id does not resolve has the empty list name. An allow-list keeps it only if it contains the empty name. |
| Filter.IncompleteOnlyNarrows | rtm_to_nextcloud.py:201-202 | Turning on the open-only option keeps exactly the open tasks among those kept without it. |
| Filter.LaterCutoffNarrows | rtm_to_nextcloud.py:205-210 | Any task kept under a later cutoff is also kept under an earlier one. |
| Filter.EarlierTotal | rtm_to_nextcloud.py:209 | The date-time comparison is a strict total order: no value is earlier than itself, and any two distinct values compare one way, never both. |
| Grouping.GroupBy | rtm_to_nextcloud.py:315-324 | The groups have distinct keys, each is non-empty, every item's key has a group, and each group holds exactly the items with its key, in input order. |
| Grouping.ExactlyOneGroup | rtm_to_nextcloud.py:317-324 | Every item lies in exactly one group, the one keyed by its own key. |
| Grouping.GroupByTotal | rtm_to_nextcloud.py:315-324 | The groups together hold as many items as the input. |
| GroupOrder.GroupByKeyOrder | rtm_to_nextcloud.py:320-322 | The group keys come out in the order in which each key first occurs in the input, each once. |
| Calendar.DisplayName | rtm_to_nextcloud.py:337 | A resolvable list id shows the list's name. Any other id shows `List-<id>`. |
| Calendar.SafeName | rtm_to_nextcloud.py:340 | The sanitised name has the list name's length. At every position it keeps an alphanumeric, space, `-` or `_` and has `_` otherwise. |
| Calendar.SafeNameKept | rtm_to_nextcloud.py:340 | Every character of a sanitised name is alphanumeric, a space, `-` or `_`. |
| Calendar.SafeNameIdempotent | rtm_to_nextcloud.py:340 | Sanitising twice is sanitising once. A name made only of kept characters is unchanged. |
| Calendar.FileName | rtm_to_nextcloud.py:341 | The file name is the sanitised name followed by `.ics`. |
| Calendar.SafeNameCollides | rtm_to_nextcloud.py:340-341 | The distinct names `a/b` and `a:b` get the same file name when `/` and `:` are not alphanumeric. |
| Calendar.DisplayNameCollides | rtm_to_nextcloud.py:337-341 | An unknown list id `7` and a real list named `List-7` share a display name and a file name. |
| Calendar.CalendarNameRoundTrip | rtm_to_nextcloud.py:349 | The X-WR-CALNAME value decodes to the list name. |
| Calendar.DocumentLines | rtm_to_nextcloud.py:344-356 | If no task has a raw line break in a verbatim field, the document splits at CRLF into the five header lines, then each task's lines in group order, then `END:VCALENDAR`. |
| Calendar.NotesBySeries | rtm_to_nextcloud.py:304-312 | There is an entry exactly for each non-empty series id some note carries. Each entry is non-empty and holds only notes of that series. |
| Calendar.NotesBySeriesIsGrouping | rtm_to_nextcloud.py:304-312 | The grouping loop over notes with a series id builds exactly this dictionary: one entry per group, holding the group's notes in arrival order. |
| Pipeline.IncludedPlusFiltered | rtm_to_nextcloud.py:315-324 | The kept tasks plus `filtered_count` equal the number of input tasks. |
| Pipeline.IncludedMember | rtm_to_nextcloud.py:317-318 | A task is kept exactly when it is an input task that passes the filter. |
| Pipeline.IncludedNoFilter | rtm_to_nextcloud.py:183-212 | Without filter options every task is kept, in input order. |
| Pipeline.ConvertGroup | rtm_to_nextcloud.py:336-369 | A list's file has the display name and the sanitised file name, holds the envelope around the group's blocks, and reports its task count as open plus completed. |
| Pipeline.Convert | rtm_to_nextcloud.py:304-369 | Each file is the per-list step applied to its list id and tasks: display name, sanitised file name, and the envelope around those tasks' blocks. Files have distinct list ids, are non-empty and hold the kept tasks of their list in input order. Their task counts plus the filtered count equal the number of input tasks. |
| Pipeline.ConvertFileContents | rtm_to_nextcloud.py:315-353 | A task is in the file of list `k` exactly when it is an input task, passes the filter and has list id `k`. |
| Pipeline.ConvertCoversKept | rtm_to_nextcloud.py:317-322 | Every kept task lands in the model's file for its own list. |
| Pipeline.ConvertOrder | rtm_to_nextcloud.py:336 | The files are produced in the order in which each list id first occurs among the kept tasks. |
| Pipeline.WriteAll | rtm_to_nextcloud.py:359-360 | After the loop the output directory holds the files it held before, plus one file for each name some pass wrote. |
| Pipeline.WriteAllKeepsOthers | rtm_to_nextcloud.py:359-360 | A file whose name no pass writes keeps its earlier content. |
| Pipeline.WriteAllLastWins | rtm_to_nextcloud.py:359-360 | A written file holds the content of the last pass that wrote its name, whatever was there before. |
| Pipeline.WriteAllDistinct | rtm_to_nextcloud.py:359-360 | When the file names are pairwise distinct, every list's document survives on disk. |
| Pipeline.TuiConfig | rtm_to_nextcloud_tui.py:251-256 | The TUI's filter options are the selected names as allow-list, no deny-list, and the open-only flag and cutoff as given. |
| Pipeline.TuiConvert | rtm_to_nextcloud_tui.py:226-278 | Nothing is produced exactly when no list is selected or the cutoff text does not parse. Otherwise the result is the shared pass run with the selected names as allow-list, no deny-list, the open-only flag and the parsed cutoff. The files and the filtered count then account for every task. |
| Pipeline.TuiOnlySelected | rtm_to_nextcloud_tui.py:251-303 | Every task the TUI writes belongs to a selected list. Every open task of a selected list is written into its own list's file, whatever the cutoff. |
| Tally.TallyByList | rtm_to_nextcloud_tui.py:141-154 | There is an entry exactly for each list id that occurs. Its total, completed and open counts are those of that list's tasks, and total equals open plus completed. |
| Tally.TallyMatchesGroups | rtm_to_nextcloud_tui.py:141-154 | Each list's total equals the size of its group when all tasks are grouped by list id. That is the conversion's grouping when no filter option is set (Pipeline.IncludedNoFilter). The totals add up to the number of tasks. |

## Left out

- JSON loading, argument parsing (`--lists` comma splitting, `parse_date`),
  `mkdir`, the file system calls themselves (`Pipeline.WriteAll` models
  only the resulting directory), progress printing and error reporting: these are
  I/O and command-line plumbing. The filter options and the list-id to name
  table are inputs.
- The Textual interface: widgets, CSS, key bindings, the checkbox queries
  and notifications. The selection and the cutoff field are inputs. The
  cutoff field is `Blank`, `Parsed(date)` or `Unparseable`, standing for
  `strptime` on the stripped text.
- `datetime.fromtimestamp`, the host's time-zone conversion of
  `timestamp_ms / 1000.0`: it is the `clock` parameter. Float rounding and
  DST behaviour live inside it.
- `str.isalnum` and its Unicode tables: the `isAlnum` parameter.
- `%Y` for years below 1000: the model pads the year to four digits. Python
  on some C libraries writes fewer digits there.
- A task without an `id` key makes the code raise `KeyError`. The model's
  task always has an id.
- Non-text JSON values handed to `str()` or to f-strings (numeric ids,
  numeric tags): every id, tag and note content is modelled as text.
- The totals printed after conversion (`total_tasks`, `files_created`):
  `Pipeline.Convert` states the file counts they add up.
- VTodo.VTodoBlock: the id, parent id and repeat rule go into the block
  without escaping. The CRLF round trip is proved only when they hold no
  line break, because the code does not guard against one.
- Calendar.DocumentLines: the same condition, for every task of the list.
- Errors from `datetime.fromtimestamp`: for a timestamp outside the host's
  range (for example `10**15` ms, in year 33658), it raises `ValueError`,
  `OverflowError` or `OSError`. The command line then stops in its
  exception handler, possibly after some files are written. The TUI reports
  the error instead. The filter's cutoff check has the same path. The
  `clock` parameter is total and always yields a year up to 9999, so the
  model always emits the line.
- Pipeline.WriteAll: the file content is the document text itself. Python's
  text mode writes each `\n` as the host's line separator, which on Windows
  turns every CRLF into CR CR LF. The UTF-8 encoding of the text is not
  modelled either.
- Pipeline.Convert: its files have distinct list ids, but not necessarily
  distinct file names. What reaches the disk is stated separately by
  `Pipeline.WriteAll`, `Pipeline.WriteAllKeepsOthers` and
  `Pipeline.WriteAllLastWins`.

=== FILE: calendar.dfy ===
/**
 * One output file: the VCALENDAR envelope around a list's VTODO blocks
 * (section 3.4 of RFC 5545), the display name of the list, its sanitised
 * file name, and the notes dictionary the blocks read their descriptions from.
 */
module Calendar {

  import opened Wrappers
  import opened Seqs
  import opened Text
  import opened Escape
  import opened Records
  import opened Fields
  import opened VTodo
  import opened Grouping

  const ProductId: string := "-//RTM to Nextcloud Converter//EN"
  const Footer: string := "END:VCALENDAR"

  // ----- List names and file names -----

  /** `lists.get(list_id, f'List-{list_id}')`. */
  function DisplayName(listId: string, lists: map<string, string>): (r: string)
    ensures listId in lists ==> r == lists[listId]
    ensures listId !in lists ==> r == "List-" + listId
  {
    if listId in lists then lists[listId] else "List-" + listId
  }

  /** Characters a file name keeps: alphanumerics (as the host decides), space, `-` and `_`. */
  predicate Kept(c: char, isAlnum: char -> bool) {
    isAlnum(c) || c == ' ' || c == '-' || c == '_'
  }

  /** The sanitising comprehension over the list name, character by character. */
  function SafeName(name: string, isAlnum: char -> bool): (r: string)
    ensures |r| == |name|
    ensures forall i :: 0 <= i < |name| ==> r[i] == if Kept(name[i], isAlnum) then name[i] else '_'
    decreases |name|
  {
    if |name| == 0 then ""
    else [if Kept(name[0], isAlnum) then name[0] else '_'] + SafeName(name[1..], isAlnum)
  }

  /** Every character of a sanitised name is one a file name keeps. */
  lemma SafeNameKept(name: string, isAlnum: char -> bool)
    ensures forall i :: 0 <= i < |name| ==> Kept(SafeName(name, isAlnum)[i], isAlnum)
  {
  }

  /** Sanitising is idempotent, and leaves a name made only of kept characters unchanged. */
  lemma SafeNameIdempotent(name: string, isAlnum: char -> bool)
    ensures SafeName(SafeName(name, isAlnum), isAlnum) == SafeName(name, isAlnum)
    ensures (forall i :: 0 <= i < |name| ==> Kept(name[i], isAlnum)) ==> SafeName(name, isAlnum) == name
  {
  }

  /** `f'{safe_name}.ics'`. */
  function FileName(listName: string, isAlnum: char -> bool): (r: string)
    ensures |r| == |listName| + 4
    ensures r[..|listName|] == SafeName(listName, isAlnum)
    ensures r[|listName|..] == ".ics"
  {
    SafeName(listName, isAlnum) + ".ics"
  }

  /**
   * Sanitising can map different list names to one file name: any two names
   * that differ only in characters the file name drops.
   */
  lemma SafeNameCollides(isAlnum: char -> bool)
    requires !isAlnum('/') && !isAlnum(':')
    ensures "a/b" != "a:b" && FileName("a/b", isAlnum) == FileName("a:b", isAlnum)
  {
    assert SafeName("a/b", isAlnum)[1] == '_' == SafeName("a:b", isAlnum)[1];
    assert SafeName("a/b", isAlnum) == SafeName("a:b", isAlnum);
  }

  /**
   * The fallback display name of an unknown list id can equal the name of a
   * real list, so two list ids can share a display name and a file name.
   */
  lemma DisplayNameCollides(isAlnum: char -> bool)
    ensures var lists := map["3" := "List-7"];
      && DisplayName("3", lists) == DisplayName("7", lists)
      && FileName(DisplayName("3", lists), isAlnum) == FileName(DisplayName("7", lists), isAlnum)
  {
  }

  // ----- The envelope -----

  /** The five header lines, ending with the escaped list name as calendar name. */
  function Header(listName: string): (r: seq<string>)
    ensures |r| == 5
  {
    ["BEGIN:VCALENDAR", "VERSION:2.0", "PRODID:" + ProductId, "CALSCALE:GREGORIAN",
     "X-WR-CALNAME:" + EscapeText(Some(listName))]
  }

  /** No header line holds a raw line break, whatever the list name. */
  lemma HeaderNoLineBreak(listName: string)
    ensures forall i :: 0 <= i < 5 ==> '\n' !in Header(listName)[i]
  {
    var h := Header(listName);
    var name := EscapeText(Some(listName));
    EscapeNoLineBreak(listName);
    FixedLinesClean();
    assert h[4] == "X-WR-CALNAME:" + name;
    assert '\n' !in h[4] by {
      forall j | 0 <= j < |h[4]| ensures h[4][j] != '\n' {
        if j >= 13 {
          assert h[4][j] == name[j - 13];
        }
      }
    }
  }

  /** The four fixed header lines hold no line break. */
  lemma FixedLinesClean()
    ensures '\n' !in "BEGIN:VCALENDAR" && '\n' !in "VERSION:2.0"
    ensures '\n' !in "PRODID:" + ProductId && '\n' !in "CALSCALE:GREGORIAN"
  {
  }

  /** The calendar name reads back, under the TEXT decoding, as the list name. */
  lemma CalendarNameRoundTrip(listName: string)
    ensures DecodeText(Header(listName)[4][13..]) == Some(listName)
  {
    var h := Header(listName);
    assert h[4][13..] == EscapeText(Some(listName));
    EscapeRoundTrip(listName);
  }

  /** The VTODO text block of each task, in order. */
  function Blocks(tasks: seq<Task>, lists: map<string, string>, notesBySeries: map<string, seq<Note>>, clock: Clock): (r: seq<string>)
    ensures |r| == |tasks|
  {
    seq(|tasks|, i requires 0 <= i < |tasks| => VTodoBlock(tasks[i], lists, notesBySeries, clock))
  }

  /** The lines of each task's block, in order. */
  function BlockLines(tasks: seq<Task>, lists: map<string, string>, notesBySeries: map<string, seq<Note>>, clock: Clock): (r: seq<seq<string>>)
    ensures |r| == |tasks|
    ensures forall i :: 0 <= i < |tasks| ==> |r[i]| >= 3
  {
    seq(|tasks|, i requires 0 <= i < |tasks| => VTodoLines(tasks[i], lists, notesBySeries, clock))
  }

  /** The file content: header, one block per task, footer, all joined with CRLF. */
  function Document(listName: string, tasks: seq<Task>, lists: map<string, string>, notesBySeries: map<string, seq<Note>>, clock: Clock): string {
    Join(CRLF, Header(listName) + Blocks(tasks, lists, notesBySeries, clock) + [Footer])
  }

  /** Each text block is its lines joined with CRLF. */
  lemma BlocksJoinLines(tasks: seq<Task>, lists: map<string, string>, notesBySeries: map<string, seq<Note>>, clock: Clock)
    ensures Blocks(tasks, lists, notesBySeries, clock) == JoinEach(CRLF, BlockLines(tasks, lists, notesBySeries, clock))
  {
  }

  /** No line of any task's block holds a raw line break. */
  lemma BlockLinesClean(tasks: seq<Task>, lists: map<string, string>, notesBySeries: map<string, seq<Note>>, clock: Clock)
    requires forall i :: 0 <= i < |tasks| ==> NoRawLineBreaks(tasks[i])
    ensures forall l :: l in Flatten(BlockLines(tasks, lists, notesBySeries, clock)) ==> '\n' !in l
  {
    var blocks := BlockLines(tasks, lists, notesBySeries, clock);
    forall l | l in Flatten(blocks) ensures '\n' !in l {
      FlattenMember(blocks, l);
      var k :| 0 <= k < |blocks| && l in blocks[k];
      var j :| 0 <= j < |blocks[k]| && blocks[k][j] == l;
      assert NoRawLineBreaks(tasks[k]);
    }
  }

  /**
   * When no task carries a raw line break in a verbatim field, the document
   * splits at CRLF into exactly the header lines, then every task's lines in
   * task order, then the footer.
   */
  lemma DocumentLines(listName: string, tasks: seq<Task>, lists: map<string, string>, notesBySeries: map<string, seq<Note>>, clock: Clock)
    requires forall i :: 0 <= i < |tasks| ==> NoRawLineBreaks(tasks[i])
    ensures SplitCrlf(Document(listName, tasks, lists, notesBySeries, clock))
      == Header(listName) + Flatten(BlockLines(tasks, lists, notesBySeries, clock)) + [Footer]
  {
    var head := Header(listName);
    var blocks := BlockLines(tasks, lists, notesBySeries, clock);
    BlocksJoinLines(tasks, lists, notesBySeries, clock);
    JoinEnvelope(CRLF, head, blocks, [Footer]);
    var flat := Flatten(blocks);
    var all := head + flat + [Footer];
    HeaderNoLineBreak(listName);
    BlockLinesClean(tasks, lists, notesBySeries, clock);
    forall i | 0 <= i < |all| ensures '\n' !in all[i] {
      if |head| <= i < |all| - 1 {
        assert all[i] == flat[i - |head|];
      }
    }
    SplitJoin(all);
  }

  // ----- Notes by series -----

  /** The notes whose `series_id` is non-empty, in order: the ones the source files away. */
  function WithSeries(notes: seq<Note>): (r: seq<Note>)
    ensures forall i :: 0 <= i < |r| ==> r[i].seriesId != ""
    decreases |notes|
  {
    if |notes| == 0 then []
    else WithSeries(notes[..|notes| - 1]) + (if notes[|notes| - 1].seriesId != "" then [notes[|notes| - 1]] else [])
  }

  /** The non-empty series ids the notes carry. */
  function SeriesKeys(notes: seq<Note>): set<string> {
    set i | 0 <= i < |notes| && notes[i].seriesId != "" :: notes[i].seriesId
  }

  /**
   * `notes_by_series`: for every non-empty series id some note carries, the
   * notes of that series in arrival order.
   */
  function NotesBySeries(notes: seq<Note>): (r: map<string, seq<Note>>)
    ensures forall k :: k in r <==> k != "" && exists i :: 0 <= i < |notes| && notes[i].seriesId == k
    ensures forall k :: k in r ==> |r[k]| > 0 && forall n :: n in r[k] ==> n in notes && n.seriesId == k
  {
    var r := map k | k in SeriesKeys(notes) :: SelectKey(SeriesIdOf, k, notes);
    forall k | k in r ensures |r[k]| > 0 && forall n :: n in r[k] ==> n in notes && n.seriesId == k {
      var i :| 0 <= i < |notes| && notes[i].seriesId != "" && notes[i].seriesId == k;
      SelectKeyMember(SeriesIdOf, k, notes, notes[i]);
      forall n | n in r[k] ensures n in notes && n.seriesId == k {
        SelectKeyMember(SeriesIdOf, k, notes, n);
      }
    }
    r
  }

  /**
   * The grouping loop over the notes that carry a series id builds exactly
   * this dictionary: one entry per group, holding the group's notes.
   */
  lemma NotesBySeriesIsGrouping(notes: seq<Note>)
    ensures var gs := GroupBy(SeriesIdOf, WithSeries(notes));
      var m := NotesBySeries(notes);
      && (forall i :: 0 <= i < |gs| ==> gs[i].key in m && m[gs[i].key] == gs[i].members)
      && (forall k :: k in m ==> HasKey(gs, k))
  {
    var ws := WithSeries(notes);
    var gs := GroupBy(SeriesIdOf, ws);
    var m := NotesBySeries(notes);
    forall i | 0 <= i < |gs| ensures gs[i].key in m && m[gs[i].key] == gs[i].members {
      var k := gs[i].key;
      var x := gs[i].members[0];
      SelectKeyMember(SeriesIdOf, k, ws, x);
      WithSeriesMember(notes, x);
      SelectWithSeries(notes, k);
    }
    forall k | k in m ensures HasKey(gs, k) {
      var j :| 0 <= j < |notes| && notes[j].seriesId == k;
      WithSeriesMember(notes, notes[j]);
      var jj :| 0 <= jj < |ws| && ws[jj] == notes[j];
    }
  }

  lemma {:induction false} WithSeriesMember(notes: seq<Note>, x: Note)
    ensures x in WithSeries(notes) <==> x in notes && x.seriesId != ""
    decreases |notes|
  {
    if |notes| > 0 {
      WithSeriesMember(notes[..|notes| - 1], x);
      assert notes == notes[..|notes| - 1] + [notes[|notes| - 1]];
    }
  }

  /** Dropping the notes without a series changes nothing under a non-empty series id. */
  lemma {:induction false} SelectWithSeries(notes: seq<Note>, k: string)
    requires k != ""
    ensures SelectKey(SeriesIdOf, k, WithSeries(notes)) == SelectKey(SeriesIdOf, k, notes)
    decreases |notes|
  {
    if |notes| > 0 {
      var init := notes[..|notes| - 1];
      var x := notes[|notes| - 1];
      SelectWithSeries(init, k);
      var ws := WithSeries(notes);
      if x.seriesId != "" {
        assert ws[..|ws| - 1] == WithSeries(init);
        assert ws[|ws| - 1] == x;
      } else {
        assert ws == WithSeries(init);
      }
    }
  }
}

=== FILE: decimal.dfy ===
/** Decimal digit strings: `strftime`'s zero-padded fields and Python's `str(int)`. */
module Decimal {

  predicate IsDigit(c: char) {
    '0' <= c <= '9'
  }

  predicate AllDigits(s: string) {
    forall i :: 0 <= i < |s| ==> IsDigit(s[i])
  }

  function DigitChar(d: nat): (c: char)
    requires d < 10
    ensures IsDigit(c)
  {
    (('0' as int) + d) as char
  }

  function DigitValue(c: char): nat
    requires IsDigit(c)
  {
    (c as int) - ('0' as int)
  }

  /** The number a digit string denotes (most significant digit first). */
  function Value(s: string): nat
    requires AllDigits(s)
    decreases |s|
  {
    if |s| == 0 then 0 else Value(s[..|s| - 1]) * 10 + DigitValue(s[|s| - 1])
  }

  function Pow10(n: nat): nat {
    if n == 0 then 1 else 10 * Pow10(n - 1)
  }

  /** The low `width` decimal digits of `n`, zero-padded on the left. */
  function Pad(n: nat, width: nat): (r: string)
    ensures |r| == width && AllDigits(r)
    decreases width
  {
    if width == 0 then "" else Pad(n / 10, width - 1) + [DigitChar(n % 10)]
  }

  /** A number that fits in `width` digits is rendered exactly. */
  lemma {:induction false} PadValue(n: nat, width: nat)
    requires n < Pow10(width)
    ensures Value(Pad(n, width)) == n
    decreases width
  {
    if width > 0 {
      var r := Pad(n, width);
      assert r[..|r| - 1] == Pad(n / 10, width - 1);
      PadValue(n / 10, width - 1);
    }
  }

  /** `str(n)` for a non-negative integer: shortest digit string, no leading zero. */
  function NatToDecimal(n: nat): (r: string)
    ensures |r| >= 1 && AllDigits(r)
    ensures |r| > 1 ==> r[0] != '0'
    decreases n
  {
    if n < 10 then [DigitChar(n)] else NatToDecimal(n / 10) + [DigitChar(n % 10)]
  }

  lemma {:induction false} NatToDecimalValue(n: nat)
    ensures Value(NatToDecimal(n)) == n
    decreases n
  {
    if n >= 10 {
      var r := NatToDecimal(n);
      assert r[..|r| - 1] == NatToDecimal(n / 10);
      NatToDecimalValue(n / 10);
    }
  }

  /** `str(i)` for any integer: a minus sign in front of the magnitude when negative. */
  function IntToDecimal(i: int): (r: string)
    ensures |r| >= 1
  {
    if i < 0 then "-" + NatToDecimal(-i) else NatToDecimal(i)
  }

  /** Reading the rendering back gives the integer: sign first, then the magnitude's digits. */
  lemma IntToDecimalValue(i: int)
    ensures var r := IntToDecimal(i);
      && (i < 0 <==> r[0] == '-')
      && (i < 0 ==> AllDigits(r[1..]) && Value(r[1..]) == -i)
      && (i >= 0 ==> AllDigits(r) && Value(r) == i)
  {
    if i < 0 {
      assert IntToDecimal(i)[1..] == NatToDecimal(-i);
      NatToDecimalValue(-i);
    } else {
      NatToDecimalValue(i);
    }
  }
}

=== FILE: escape.dfy ===
/**
 * TEXT escaping of section 3.3.11 of RFC 5545 (`escape_ical_text`), and the
 * decoding rule of that section, used to state what the escaping preserves.
 */
module Escape {

  import opened Wrappers
  import opened Text

  /** `s.replace(target, repl)` for a one-character pattern. */
  function Replace(s: string, target: char, repl: string): string
    decreases |s|
  {
    if |s| == 0 then "" else (if s[0] == target then repl else [s[0]]) + Replace(s[1..], target, repl)
  }

  /** The escape of one character, in a single left-to-right pass. */
  function EscapeChar(c: char): string {
    if c == '\\' then "\\\\"
    else if c == ',' then "\\,"
    else if c == ';' then "\\;"
    else if c == '\n' then "\\n"
    else [c]
  }

  /** Reference definition: every character replaced by its escape. */
  function EscapeEach(s: string): string
    decreases |s|
  {
    if |s| == 0 then "" else EscapeChar(s[0]) + EscapeEach(s[1..])
  }

  /** The four `str.replace` calls of `escape_ical_text`, backslash first. */
  function ReplaceChain(s: string): string {
    Replace(Replace(Replace(Replace(s, '\\', "\\\\"), ',', "\\,"), ';', "\\;"), '\n', "\\n")
  }

  /**
   * `escape_ical_text(text)`: empty for an absent or empty text, otherwise the
   * replacement chain, which performs the single-pass escape.
   */
  function EscapeText(text: Option<string>): (r: string)
    ensures text.None? ==> r == ""
    ensures text.Some? ==> r == EscapeEach(text.value)
  {
    if text.None? || text.value == "" then ""
    else
      ReplaceChainIsSinglePass(text.value);
      ReplaceChain(text.value)
  }

  predicate IsSpecial(c: char) {
    c == '\\' || c == ',' || c == ';' || c == '\n'
  }

  lemma {:induction false} ReplaceAppend(a: string, b: string, target: char, repl: string)
    ensures Replace(a + b, target, repl) == Replace(a, target, repl) + Replace(b, target, repl)
    decreases |a|
  {
    if |a| > 0 {
      assert (a + b)[1..] == a[1..] + b;
      ReplaceAppend(a[1..], b, target, repl);
    } else {
      assert a + b == b;
    }
  }

  lemma {:induction false} ReplaceAbsent(s: string, target: char, repl: string)
    requires target !in s
    ensures Replace(s, target, repl) == s
    decreases |s|
  {
    if |s| > 0 {
      ReplaceAbsent(s[1..], target, repl);
      assert [s[0]] + s[1..] == s;
    }
  }

  lemma ReplaceOne(c: char, target: char, repl: string)
    ensures Replace([c], target, repl) == if c == target then repl else [c]
  {
    assert [c][1..] == [];
    var e := if c == target then repl else [c];
    assert e + "" == e;
  }

  lemma ReplaceChainChar(c: char)
    ensures ReplaceChain([c]) == EscapeChar(c)
  {
    ReplaceOne(c, '\\', "\\\\");
    var s1 := Replace([c], '\\', "\\\\");
    if c == '\\' { ReplaceAbsent(s1, ',', "\\,"); } else { ReplaceOne(c, ',', "\\,"); }
    var s2 := Replace(s1, ',', "\\,");
    if c == '\\' || c == ',' { ReplaceAbsent(s2, ';', "\\;"); } else { ReplaceOne(c, ';', "\\;"); }
    var s3 := Replace(s2, ';', "\\;");
    if c == '\\' || c == ',' || c == ';' { ReplaceAbsent(s3, '\n', "\\n"); } else { ReplaceOne(c, '\n', "\\n"); }
  }

  /** Escaping backslash first makes the chain equal to the single-pass escape. */
  lemma {:induction false} ReplaceChainIsSinglePass(s: string)
    ensures ReplaceChain(s) == EscapeEach(s)
    decreases |s|
  {
    if |s| > 0 {
      var h := [s[0]];
      var t := s[1..];
      assert s == h + t;
      ReplaceAppend(h, t, '\\', "\\\\");
      var a1, b1 := Replace(h, '\\', "\\\\"), Replace(t, '\\', "\\\\");
      ReplaceAppend(a1, b1, ',', "\\,");
      var a2, b2 := Replace(a1, ',', "\\,"), Replace(b1, ',', "\\,");
      ReplaceAppend(a2, b2, ';', "\\;");
      var a3, b3 := Replace(a2, ';', "\\;"), Replace(b2, ';', "\\;");
      ReplaceAppend(a3, b3, '\n', "\\n");
      ReplaceChainChar(s[0]);
      ReplaceChainIsSinglePass(t);
    }
  }

  /** Text with none of the four reserved characters is left as it is. */
  lemma {:induction false} EscapePlainText(s: string)
    requires forall i :: 0 <= i < |s| ==> !IsSpecial(s[i])
    ensures EscapeText(Some(s)) == s
    decreases |s|
  {
    if |s| > 0 {
      EscapePlainText(s[1..]);
      assert [s[0]] + s[1..] == s;
    }
  }

  /** An escaped text never contains a raw line break, so it stays on one content line. */
  lemma {:induction false} EscapeNoLineBreak(s: string)
    ensures '\n' !in EscapeEach(s)
    decreases |s|
  {
    if |s| > 0 {
      EscapeNoLineBreak(s[1..]);
    }
  }

  // ----- Decoding, as section 3.3.11 of RFC 5545 reads a TEXT list value -----

  /** The character an escape sequence `\c` stands for. */
  function UnescapeChar(c: char): Option<char> {
    if c == '\\' then Some('\\')
    else if c == ',' then Some(',')
    else if c == ';' then Some(';')
    else if c == 'n' || c == 'N' then Some('\n')
    else None
  }

  /**
   * Decodes a comma-separated list of TEXT values: unescaped commas separate
   * the values; an unescaped semicolon, a bad escape or a trailing backslash
   * makes the value malformed.
   */
  function DecodeTextList(s: string): (r: Option<seq<string>>)
    ensures r.Some? ==> |r.value| >= 1
    decreases |s|
  {
    if |s| == 0 then Some([""])
    else if s[0] == ',' then
      match DecodeTextList(s[1..])
      case None => None
      case Some(rest) => Some([""] + rest)
    else if s[0] == ';' then None
    else if s[0] == '\\' then
      if |s| < 2 then None
      else match UnescapeChar(s[1])
        case None => None
        case Some(c) => PrependToFirst([c], DecodeTextList(s[2..]))
    else PrependToFirst([s[0]], DecodeTextList(s[1..]))
  }

  function PrependToFirst(x: string, r: Option<seq<string>>): (r': Option<seq<string>>)
    requires r.Some? ==> |r.value| >= 1
    ensures r'.Some? ==> |r'.value| >= 1
  {
    match r
    case None => None
    case Some(vs) => Some([x + vs[0]] + vs[1..])
  }

  /** Decodes a single TEXT value; a value holding an unescaped comma is malformed. */
  function DecodeText(s: string): Option<string> {
    match DecodeTextList(s)
    case Some(vs) => if |vs| == 1 then Some(vs[0]) else None
    case None => None
  }

  lemma DecodeAfterEscapeChar(c: char, t: string)
    ensures DecodeTextList(EscapeChar(c) + t) == PrependToFirst([c], DecodeTextList(t))
  {
    var s := EscapeChar(c) + t;
    if IsSpecial(c) {
      assert s[2..] == t;
    } else {
      assert s[1..] == t;
    }
  }

  lemma PrependTwice(c: char, x: string, r: Option<seq<string>>)
    requires r.Some? ==> |r.value| >= 1
    ensures PrependToFirst([c], PrependToFirst(x, r)) == PrependToFirst([c] + x, r)
  {
    if r.Some? {
      var vs := r.value;
      assert [c] + (x + vs[0]) == ([c] + x) + vs[0];
    }
  }

  /** Decoding an escaped text followed by more input prepends the original text to the first value. */
  lemma {:induction false} DecodeAfterEscape(x: string, tail: string)
    ensures DecodeTextList(EscapeEach(x) + tail) == PrependToFirst(x, DecodeTextList(tail))
    decreases |x|
  {
    if |x| == 0 {
      assert EscapeEach(x) + tail == tail;
      match DecodeTextList(tail)
      case None =>
      case Some(vs) =>
        assert x + vs[0] == vs[0];
        assert [vs[0]] + vs[1..] == vs;
    } else {
      var t := EscapeEach(x[1..]) + tail;
      assert EscapeEach(x) + tail == EscapeChar(x[0]) + t;
      DecodeAfterEscapeChar(x[0], t);
      DecodeAfterEscape(x[1..], tail);
      PrependTwice(x[0], x[1..], DecodeTextList(tail));
      assert [x[0]] + x[1..] == x;
    }
  }

  function EscapeList(xs: seq<string>): (r: seq<string>)
    ensures |r| == |xs|
    ensures forall i :: 0 <= i < |xs| ==> r[i] == EscapeText(Some(xs[i]))
  {
    seq(|xs|, i requires 0 <= i < |xs| => EscapeText(Some(xs[i])))
  }

  /** Round trip of a TEXT list: escaping each value and joining with commas decodes to the values. */
  lemma {:induction false} DecodeEscapedList(xs: seq<string>)
    requires |xs| >= 1
    ensures DecodeTextList(Join(",", EscapeList(xs))) == Some(xs)
    decreases |xs|
  {
    if |xs| == 1 {
      DecodeAfterEscape(xs[0], "");
      assert Join(",", EscapeList(xs)) + "" == EscapeEach(xs[0]);
      assert xs[0] + "" == xs[0];
      assert [xs[0]] + [""][1..] == xs;
    } else {
      var rest := Join(",", EscapeList(xs[1..]));
      assert EscapeList(xs)[1..] == EscapeList(xs[1..]);
      assert Join(",", EscapeList(xs)) == EscapeEach(xs[0]) + ("," + rest);
      DecodeEscapedList(xs[1..]);
      assert ("," + rest)[1..] == rest;
      DecodeAfterEscape(xs[0], "," + rest);
      assert DecodeTextList("," + rest) == Some([""] + xs[1..]);
      assert xs[0] + "" == xs[0];
      assert ([""] + xs[1..])[1..] == xs[1..];
      assert [xs[0]] + xs[1..] == xs;
    }
  }

  /** Round trip of one TEXT value: decoding the escape recovers the text exactly. */
  lemma EscapeRoundTrip(s: string)
    ensures DecodeText(EscapeText(Some(s))) == Some(s)
  {
    DecodeAfterEscape(s, "");
    assert EscapeText(Some(s)) + "" == EscapeEach(s);
    assert s + "" == s;
    assert [s] + [""][1..] == [s];
    assert DecodeTextList(EscapeText(Some(s))) == Some([s]);
  }
}

=== FILE: fields.dfy ===
/**
 * The leaf converters: `format_datetime`, `convert_priority` and
 * `convert_recurrence` (DATE and DATE-TIME forms of sections 3.3.4 and
 * 3.3.5 of RFC 5545, PRIORITY of section 3.8.1.9).
 */
module Fields {

  import opened Wrappers
  import opened Decimal
  import opened Records

  /** A local calendar date and clock time, as `datetime.fromtimestamp` yields it. */
  datatype CivilTime = CivilTime(year: int, month: int, day: int, hour: int, minute: int, second: int)
  {
    predicate Valid() {
      && 1 <= year <= 9999 && 1 <= month <= 12 && 1 <= day <= 31
      && 0 <= hour < 24 && 0 <= minute < 60 && 0 <= second < 60
    }
  }

  type Civil = c: CivilTime | c.Valid() witness CivilTime(1970, 1, 1, 0, 0, 0)

  /**
   * The host's conversion of a millisecond timestamp to local time
   * (`datetime.fromtimestamp(ms / 1000.0)`), supplied by the caller.
   */
  type Clock = int -> Civil

  /** `strftime('%Y%m%d')`. */
  function RenderDate(c: Civil): string {
    Pad(c.year, 4) + Pad(c.month, 2) + Pad(c.day, 2)
  }

  /** `strftime('%Y%m%dT%H%M%S')`. */
  function RenderDateTime(c: Civil): string {
    RenderDate(c) + "T" + Pad(c.hour, 2) + Pad(c.minute, 2) + Pad(c.second, 2)
  }

  /** The compact DATE form (`YYYYMMDD`) or DATE-TIME form (`YYYYMMDDTHHMMSS`). */
  predicate IsStamp(s: string, hasTime: bool) {
    if hasTime then |s| == 15 && AllDigits(s[..8]) && s[8] == 'T' && AllDigits(s[9..])
    else |s| == 8 && AllDigits(s)
  }

  /** `format_datetime(timestamp_ms, has_time)`. */
  function FormatDateTime(timestampMs: Option<int>, hasTime: bool, clock: Clock): (r: Option<string>)
    ensures r.None? <==> !IsSetInt(timestampMs)
    ensures r.Some? ==> IsStamp(r.value, hasTime)
  {
    if !IsSetInt(timestampMs) then None
    else
      var c := clock(timestampMs.value);
      var s := if hasTime then RenderDateTime(c) else RenderDate(c);
      assert s[..8] == RenderDate(c);
      Some(s)
  }

  /** The rendered text reads back as the clock's date (and time, when asked for). */
  lemma FormatDateTimeDecodes(timestampMs: int, hasTime: bool, clock: Clock)
    requires timestampMs != 0
    ensures var s := FormatDateTime(Some(timestampMs), hasTime, clock).value;
      var c := clock(timestampMs);
      && AllDigits(s[0..4]) && AllDigits(s[4..6]) && AllDigits(s[6..8])
      && Value(s[0..4]) == c.year && Value(s[4..6]) == c.month && Value(s[6..8]) == c.day
      && (hasTime ==>
            && AllDigits(s[9..11]) && AllDigits(s[11..13]) && AllDigits(s[13..15])
            && Value(s[9..11]) == c.hour && Value(s[11..13]) == c.minute && Value(s[13..15]) == c.second)
  {
    var s := FormatDateTime(Some(timestampMs), hasTime, clock).value;
    var c := clock(timestampMs);
    assert s[0..4] == Pad(c.year, 4);
    assert s[4..6] == Pad(c.month, 2);
    assert s[6..8] == Pad(c.day, 2);
    PadValue(c.year, 4);
    PadValue(c.month, 2);
    PadValue(c.day, 2);
    if hasTime {
      assert s[9..11] == Pad(c.hour, 2);
      assert s[11..13] == Pad(c.minute, 2);
      assert s[13..15] == Pad(c.second, 2);
      PadValue(c.hour, 2);
      PadValue(c.minute, 2);
      PadValue(c.second, 2);
    }
  }

  /** `convert_priority`: P1, P2, P3 to 1, 5, 9 of the iCalendar scale; anything else to 0 (undefined). */
  function ConvertPriority(rtmPriority: string): (r: nat)
    ensures r == 1 <==> rtmPriority == "P1"
    ensures r == 5 <==> rtmPriority == "P2"
    ensures r == 9 <==> rtmPriority == "P3"
    ensures r == 0 <==> rtmPriority !in {"P1", "P2", "P3"}
  {
    if rtmPriority == "P1" then 1
    else if rtmPriority == "P2" then 5
    else if rtmPriority == "P3" then 9
    else 0
  }

  /** `convert_recurrence`: the RTM repeat rule is already an RRULE value and passes through. */
  function ConvertRecurrence(rtmRepeat: Option<string>): (r: Option<string>)
    ensures r.Some? <==> IsSetText(rtmRepeat)
    ensures r.Some? ==> r.value == rtmRepeat.value
  {
    if !IsSetText(rtmRepeat) then None else rtmRepeat
  }
}

=== FILE: filter.dfy ===
/**
 * `should_include_task`: the four filter clauses a task must pass before it
 * is grouped and converted.
 */
module Filter {

  import opened Wrappers
  import opened Records
  import opened Fields

  /**
   * The filter options the converter reads from its argument namespace.
   * `lists` and `excludeLists` are `None` when the option was not given;
   * `skipCompletedBefore` is the local date-time the cutoff option parses to.
   */
  datatype FilterConfig = FilterConfig(
    lists: Option<seq<string>>,
    excludeLists: Option<seq<string>>,
    incompleteOnly: bool,
    skipCompletedBefore: Option<Civil>)

  /** No option set: every task passes. */
  const NoFilter: FilterConfig := FilterConfig(None, None, false, None)

  /** Python truthiness of an optional list of names: given and non-empty. */
  predicate Configured(o: Option<seq<string>>) {
    o.Some? && |o.value| > 0
  }

  /** `list_names.get(str(task.get('list_id', '')), '')`: an unknown list has the empty name. */
  function ListNameOf(t: Task, lists: map<string, string>): string {
    if t.listId in lists then lists[t.listId] else ""
  }

  /**
   * Comparison of two naive local date-times, field by field from the year
   * down. The cutoff carries no sub-second part, so comparing to the second
   * decides `completed_dt < cutoff` exactly.
   */
  predicate Earlier(a: CivilTime, b: CivilTime) {
    if a.year != b.year then a.year < b.year
    else if a.month != b.month then a.month < b.month
    else if a.day != b.day then a.day < b.day
    else if a.hour != b.hour then a.hour < b.hour
    else if a.minute != b.minute then a.minute < b.minute
    else a.second < b.second
  }

  // ----- The four clauses, each stated on its own -----

  /** The task's list name is one of `lists`, when that option is set. */
  predicate InAllowedList(t: Task, cfg: FilterConfig, lists: map<string, string>) {
    Configured(cfg.lists) ==> ListNameOf(t, lists) in cfg.lists.value
  }

  /** The task's list name is none of `excludeLists`, when that option is set. */
  predicate NotInExcludedList(t: Task, cfg: FilterConfig, lists: map<string, string>) {
    Configured(cfg.excludeLists) ==> ListNameOf(t, lists) !in cfg.excludeLists.value
  }

  /** The task is open, when only incomplete tasks are wanted. */
  predicate OpenWhenRequired(t: Task, cfg: FilterConfig) {
    cfg.incompleteOnly ==> !IsCompleted(t)
  }

  /** A completed task was not completed before the cutoff, when one is set. */
  predicate NotCompletedBeforeCutoff(t: Task, cfg: FilterConfig, clock: Clock) {
    (cfg.skipCompletedBefore.Some? && IsCompleted(t))
      ==> !Earlier(clock(t.dateCompleted.value), cfg.skipCompletedBefore.value)
  }

  /**
   * `should_include_task(task, args, list_names)`, as its chain of early
   * returns: true exactly when all four clauses hold.
   */
  function ShouldInclude(t: Task, cfg: FilterConfig, lists: map<string, string>, clock: Clock): (r: bool)
    ensures r <==>
      && InAllowedList(t, cfg, lists)
      && NotInExcludedList(t, cfg, lists)
      && OpenWhenRequired(t, cfg)
      && NotCompletedBeforeCutoff(t, cfg, clock)
  {
    var name := ListNameOf(t, lists);
    if Configured(cfg.lists) && name !in cfg.lists.value then false
    else if Configured(cfg.excludeLists) && name in cfg.excludeLists.value then false
    else if cfg.incompleteOnly && IsCompleted(t) then false
    else if cfg.skipCompletedBefore.Some? && IsCompleted(t) then
      var completedAt := clock(t.dateCompleted.value);
      !Earlier(completedAt, cfg.skipCompletedBefore.value)
    else true
  }

  // ----- Consequences -----

  /** The completion clauses never exclude an open task: only the list clauses can. */
  lemma CutoffSparesIncomplete(t: Task, cfg: FilterConfig, lists: map<string, string>, clock: Clock)
    requires !IsCompleted(t)
    ensures ShouldInclude(t, cfg, lists, clock) <==>
      InAllowedList(t, cfg, lists) && NotInExcludedList(t, cfg, lists)
  {
  }

  /** With no option set every task is kept. */
  lemma NoFilterKeepsAll(t: Task, lists: map<string, string>, clock: Clock)
    ensures ShouldInclude(t, NoFilter, lists, clock)
  {
  }

  /** A list named in both options is excluded: exclusion wins over inclusion. */
  lemma ExclusionWins(t: Task, cfg: FilterConfig, lists: map<string, string>, clock: Clock)
    requires Configured(cfg.excludeLists) && ListNameOf(t, lists) in cfg.excludeLists.value
    ensures !ShouldInclude(t, cfg, lists, clock)
  {
  }

  /**
   * A task whose list id does not resolve has the empty name, so an allow-list
   * keeps it only when that list holds the empty name.
   */
  lemma UnknownListAllowed(t: Task, cfg: FilterConfig, lists: map<string, string>, clock: Clock)
    requires t.listId !in lists && Configured(cfg.lists)
    ensures ShouldInclude(t, cfg, lists, clock) ==> "" in cfg.lists.value
  {
  }

  /** Turning on `incomplete_only` can only remove tasks, and leaves exactly the open ones of those kept. */
  lemma IncompleteOnlyNarrows(t: Task, cfg: FilterConfig, lists: map<string, string>, clock: Clock)
    ensures ShouldInclude(t, cfg.(incompleteOnly := true), lists, clock) <==>
      ShouldInclude(t, cfg, lists, clock) && !IsCompleted(t)
  {
  }

  /** A later cutoff removes at least the completed tasks an earlier one removes. */
  lemma LaterCutoffNarrows(t: Task, cfg: FilterConfig, early: Civil, late: Civil, lists: map<string, string>, clock: Clock)
    requires Earlier(early, late)
    ensures ShouldInclude(t, cfg.(skipCompletedBefore := Some(late)), lists, clock)
      ==> ShouldInclude(t, cfg.(skipCompletedBefore := Some(early)), lists, clock)
  {
    if IsCompleted(t) {
      var c := clock(t.dateCompleted.value);
      if !Earlier(c, late) {
        EarlierTotal(c, early);
        if Earlier(c, early) {
          EarlierTransitive(c, early, late);
        }
      }
    }
  }

  // ----- Earlier is a strict total order -----

  lemma EarlierTransitive(a: CivilTime, b: CivilTime, c: CivilTime)
    requires Earlier(a, b) && Earlier(b, c)
    ensures Earlier(a, c)
  {
  }

  lemma EarlierTotal(a: CivilTime, b: CivilTime)
    ensures a == b || Earlier(a, b) || Earlier(b, a)
    ensures !(Earlier(a, b) && Earlier(b, a))
    ensures !Earlier(a, a)
  {
  }
}

=== FILE: group_order.dfy ===
/**
 * The iteration order of a dictionary built by appending: Python yields keys
 * in first-insertion order, which is the order in which each key first
 * occurs in the input.
 */
module GroupOrder {

  import opened Grouping

  /** The keys of the groups, in dictionary order. */
  function Keys<T>(gs: seq<Group<T>>): (ks: seq<string>)
    ensures |ks| == |gs|
    ensures forall i :: 0 <= i < |gs| ==> ks[i] == gs[i].key
  {
    seq(|gs|, i requires 0 <= i < |gs| => gs[i].key)
  }

  /** Each key that occurs in `xs`, once, in the order of its first occurrence. */
  function FirstSeen<T>(key: T -> string, xs: seq<T>): seq<string>
    decreases |xs|
  {
    if |xs| == 0 then []
    else
      var seen := FirstSeen(key, xs[..|xs| - 1]);
      if key(xs[|xs| - 1]) in seen then seen else seen + [key(xs[|xs| - 1])]
  }

  /** The dictionary's keys come out in the order their first item arrived. */
  lemma {:induction false} GroupByKeyOrder<T>(key: T -> string, xs: seq<T>)
    ensures Keys(GroupBy(key, xs)) == FirstSeen(key, xs)
    decreases |xs|
  {
    if |xs| > 0 {
      var init := xs[..|xs| - 1];
      var x := xs[|xs| - 1];
      var prev := GroupBy(key, init);
      GroupByKeyOrder(key, init);
      assert HasKey(prev, key(x)) <==> key(x) in Keys(prev) by {
        if key(x) in Keys(prev) {
          var i :| 0 <= i < |prev| && Keys(prev)[i] == key(x);
        }
      }
      PlaceKeys(prev, key(x), x);
    }
  }

  /** Placing an item leaves the key order alone, or appends a new key at the end. */
  lemma PlaceKeys<T>(gs: seq<Group<T>>, k: string, x: T)
    requires DistinctKeys(gs)
    ensures Keys(Place(gs, k, x)) == Keys(gs) + (if HasKey(gs, k) then [] else [k])
  {
  }
}

=== FILE: grouping.dfy ===
/**
 * Grouping by key into an insertion-ordered dictionary of lists, the idiom
 * the converter uses for `tasks_by_list` and `notes_by_series`:
 *
 *   if key not in groups: groups[key] = []
 *   groups[key].append(item)
 *
 * A dictionary keeps its keys in first-insertion order, so it is modelled as a
 * sequence of groups with distinct keys.
 */
module Grouping {

  /** One dictionary entry: a key and the items appended under it, in order. */
  datatype Group<T> = Group(key: string, members: seq<T>)

  /** The items of `xs` whose key is `k`, in input order. */
  function SelectKey<T>(key: T -> string, k: string, xs: seq<T>): (r: seq<T>)
    ensures |r| <= |xs|
    decreases |xs|
  {
    if |xs| == 0 then []
    else SelectKey(key, k, xs[..|xs| - 1]) + (if key(xs[|xs| - 1]) == k then [xs[|xs| - 1]] else [])
  }

  predicate DistinctKeys<T>(gs: seq<Group<T>>) {
    forall i, j :: 0 <= i < j < |gs| ==> gs[i].key != gs[j].key
  }

  predicate HasKey<T>(gs: seq<Group<T>>, k: string) {
    exists i :: 0 <= i < |gs| && gs[i].key == k
  }

  /** Total number of items held by all groups. */
  function Total<T>(gs: seq<Group<T>>): nat
    decreases |gs|
  {
    if |gs| == 0 then 0 else |gs[0].members| + Total(gs[1..])
  }

  /**
   * One step of the idiom: append `x` to the group keyed `k`, opening a new
   * group at the end when the key is new.
   */
  function Place<T>(gs: seq<Group<T>>, k: string, x: T): (r: seq<Group<T>>)
    requires DistinctKeys(gs)
    ensures DistinctKeys(r)
    ensures |r| == if HasKey(gs, k) then |gs| else |gs| + 1
    ensures forall i :: 0 <= i < |gs| ==> r[i].key == gs[i].key
    ensures forall i :: 0 <= i < |gs| ==>
      r[i].members == if gs[i].key == k then gs[i].members + [x] else gs[i].members
    ensures !HasKey(gs, k) ==> r[|gs|] == Group(k, [x])
    decreases |gs|
  {
    if |gs| == 0 then [Group(k, [x])]
    else if gs[0].key == k then [Group(k, gs[0].members + [x])] + gs[1..]
    else
      var rest := Place(gs[1..], k, x);
      assert HasKey(gs, k) <==> HasKey(gs[1..], k) by {
        if HasKey(gs, k) {
          var i :| 0 <= i < |gs| && gs[i].key == k;
          assert gs[1..][i - 1].key == k;
        }
        if HasKey(gs[1..], k) {
          var i :| 0 <= i < |gs[1..]| && gs[1..][i].key == k;
          assert gs[i + 1].key == k;
        }
      }
      [gs[0]] + rest
  }

  /** `gs` is a stable partition of `xs` by `key`. */
  predicate Partitions<T(==)>(key: T -> string, xs: seq<T>, gs: seq<Group<T>>) {
    && DistinctKeys(gs)
    && (forall i :: 0 <= i < |gs| ==> gs[i].members == SelectKey(key, gs[i].key, xs))
    && (forall i :: 0 <= i < |gs| ==> |gs[i].members| > 0)
    && (forall j :: 0 <= j < |xs| ==> HasKey(gs, key(xs[j])))
  }

  /**
   * The dictionary the loop builds from `xs`. Keys are distinct, every item's
   * key has a group, every group is non-empty and holds exactly the items with
   * its key in their input order: a stable partition.
   */
  function GroupBy<T(==)>(key: T -> string, xs: seq<T>): (gs: seq<Group<T>>)
    ensures DistinctKeys(gs)
    ensures forall i :: 0 <= i < |gs| ==> gs[i].members == SelectKey(key, gs[i].key, xs)
    ensures forall i :: 0 <= i < |gs| ==> |gs[i].members| > 0
    ensures forall j :: 0 <= j < |xs| ==> HasKey(gs, key(xs[j]))
    decreases |xs|
  {
    if |xs| == 0 then []
    else
      var prev := GroupBy(key, xs[..|xs| - 1]);
      PlaceStep(key, xs, prev);
      Place(prev, key(xs[|xs| - 1]), xs[|xs| - 1])
  }

  /** Appending the last item keeps the partition property. */
  lemma PlaceStep<T>(key: T -> string, xs: seq<T>, prev: seq<Group<T>>)
    requires |xs| > 0
    requires Partitions(key, xs[..|xs| - 1], prev)
    ensures Partitions(key, xs, Place(prev, key(xs[|xs| - 1]), xs[|xs| - 1]))
  {
    PlaceNonEmpty(prev, key(xs[|xs| - 1]), xs[|xs| - 1]);
    assert forall j :: 0 <= j < |xs| - 1 ==> xs[..|xs| - 1][j] == xs[j];
    PlaceCovers(key, xs, prev);
    PlaceSelects(key, xs, prev, Place(prev, key(xs[|xs| - 1]), xs[|xs| - 1]));
  }

  /** Placing an item leaves no group empty. */
  lemma PlaceNonEmpty<T>(gs: seq<Group<T>>, k: string, x: T)
    requires DistinctKeys(gs)
    requires forall i :: 0 <= i < |gs| ==> |gs[i].members| > 0
    ensures forall i :: 0 <= i < |Place(gs, k, x)| ==> |Place(gs, k, x)[i].members| > 0
  {
  }

  /** After placing the last item, every item's key has a group. */
  lemma PlaceCovers<T>(key: T -> string, xs: seq<T>, prev: seq<Group<T>>)
    requires |xs| > 0
    requires DistinctKeys(prev)
    requires forall j :: 0 <= j < |xs| - 1 ==> HasKey(prev, key(xs[j]))
    ensures forall j :: 0 <= j < |xs| ==> HasKey(Place(prev, key(xs[|xs| - 1]), xs[|xs| - 1]), key(xs[j]))
  {
    var x := xs[|xs| - 1];
    var gs := Place(prev, key(x), x);
    forall j | 0 <= j < |xs| ensures HasKey(gs, key(xs[j])) {
      if j < |xs| - 1 {
        var i :| 0 <= i < |prev| && prev[i].key == key(xs[j]);
        assert gs[i].key == key(xs[j]);
      } else if HasKey(prev, key(x)) {
        var i :| 0 <= i < |prev| && prev[i].key == key(x);
        assert gs[i].key == key(x);
      } else {
        assert gs[|prev|].key == key(x);
      }
    }
  }

  /** After placing the last item, every group holds exactly the items of its key. */
  lemma PlaceSelects<T>(key: T -> string, xs: seq<T>, prev: seq<Group<T>>, gs: seq<Group<T>>)
    requires |xs| > 0
    requires Partitions(key, xs[..|xs| - 1], prev)
    requires gs == Place(prev, key(xs[|xs| - 1]), xs[|xs| - 1])
    ensures forall i :: 0 <= i < |gs| ==> gs[i].members == SelectKey(key, gs[i].key, xs)
  {
    var init := xs[..|xs| - 1];
    var x := xs[|xs| - 1];
    forall i | 0 <= i < |gs| ensures gs[i].members == SelectKey(key, gs[i].key, xs) {
      if i == |prev| {
        SelectKeyAbsent(key, key(x), init, prev);
      }
    }
  }

  /** A key with no group selects nothing, given the groups cover every item. */
  lemma {:induction false} SelectKeyAbsent<T>(key: T -> string, k: string, xs: seq<T>, gs: seq<Group<T>>)
    requires forall j :: 0 <= j < |xs| ==> HasKey(gs, key(xs[j]))
    requires !HasKey(gs, k)
    ensures SelectKey(key, k, xs) == []
    decreases |xs|
  {
    if |xs| > 0 {
      var init := xs[..|xs| - 1];
      assert forall j :: 0 <= j < |init| ==> init[j] == xs[j];
      SelectKeyAbsent(key, k, init, gs);
      assert HasKey(gs, key(xs[|xs| - 1]));
    }
  }

  /** A key no item carries selects nothing. */
  lemma {:induction false} SelectKeyNone<T>(key: T -> string, k: string, xs: seq<T>)
    requires forall j :: 0 <= j < |xs| ==> key(xs[j]) != k
    ensures SelectKey(key, k, xs) == []
    decreases |xs|
  {
    if |xs| > 0 {
      SelectKeyNone(key, k, xs[..|xs| - 1]);
    }
  }

  /** Everything selected under `k` comes from `xs` and has key `k`, and each such item is selected. */
  lemma {:induction false} SelectKeyMember<T>(key: T -> string, k: string, xs: seq<T>, x: T)
    ensures x in SelectKey(key, k, xs) <==> x in xs && key(x) == k
    decreases |xs|
  {
    if |xs| > 0 {
      SelectKeyMember(key, k, xs[..|xs| - 1], x);
      assert xs == xs[..|xs| - 1] + [xs[|xs| - 1]];
    }
  }

  /** Each item lies in exactly one group: the one keyed by its own key. */
  lemma ExactlyOneGroup<T>(key: T -> string, xs: seq<T>, x: T)
    requires x in xs
    ensures var gs := GroupBy(key, xs);
      && HasKey(gs, key(x))
      && forall i :: 0 <= i < |gs| ==> (x in gs[i].members <==> gs[i].key == key(x))
  {
    var gs := GroupBy(key, xs);
    forall i | 0 <= i < |gs| ensures x in gs[i].members <==> gs[i].key == key(x) {
      SelectKeyMember(key, gs[i].key, xs, x);
    }
  }

  /** Opening or extending a group adds exactly one item to the total. */
  lemma {:induction false} PlaceTotal<T>(gs: seq<Group<T>>, k: string, x: T)
    requires DistinctKeys(gs)
    ensures Total(Place(gs, k, x)) == Total(gs) + 1
    decreases |gs|
  {
    if |gs| > 0 && gs[0].key != k {
      PlaceTotal(gs[1..], k, x);
      var r := Place(gs, k, x);
      assert r[1..] == Place(gs[1..], k, x);
    } else if |gs| > 0 {
      var r := Place(gs, k, x);
      assert r[1..] == gs[1..];
    }
  }

  /** The groups together hold exactly as many items as the input. */
  lemma {:induction false} GroupByTotal<T>(key: T -> string, xs: seq<T>)
    ensures Total(GroupBy(key, xs)) == |xs|
    decreases |xs|
  {
    if |xs| > 0 {
      var init := xs[..|xs| - 1];
      GroupByTotal(key, init);
      PlaceTotal(GroupBy(key, init), key(xs[|xs| - 1]), xs[|xs| - 1]);
    }
  }
}

=== FILE: pipeline.dfy ===
/**
 * The conversion pass shared by the command-line `main` and the TUI's
 * `action_convert`: filter the tasks, group the kept ones by list id, and
 * build one calendar document per group; plus the TUI's way of building the
 * filter options from the selected lists.
 */
module Pipeline {

  import opened Wrappers
  import opened Records
  import opened Fields
  import opened Filter
  import opened Grouping
  import opened GroupOrder
  import opened Calendar

  // ----- Filtering -----

  /** The tasks the filter keeps, in input order. */
  function Included(tasks: seq<Task>, cfg: FilterConfig, lists: map<string, string>, clock: Clock): (r: seq<Task>)
    ensures |r| <= |tasks|
    decreases |tasks|
  {
    if |tasks| == 0 then []
    else
      var t := tasks[|tasks| - 1];
      Included(tasks[..|tasks| - 1], cfg, lists, clock) + (if ShouldInclude(t, cfg, lists, clock) then [t] else [])
  }

  /** `filtered_count`: how many tasks the filter turns away. */
  function FilteredCount(tasks: seq<Task>, cfg: FilterConfig, lists: map<string, string>, clock: Clock): nat
    decreases |tasks|
  {
    if |tasks| == 0 then 0
    else
      FilteredCount(tasks[..|tasks| - 1], cfg, lists, clock)
        + (if ShouldInclude(tasks[|tasks| - 1], cfg, lists, clock) then 0 else 1)
  }

  /** Every task is either kept or counted as filtered, never both. */
  lemma {:induction false} IncludedPlusFiltered(tasks: seq<Task>, cfg: FilterConfig, lists: map<string, string>, clock: Clock)
    ensures |Included(tasks, cfg, lists, clock)| + FilteredCount(tasks, cfg, lists, clock) == |tasks|
    decreases |tasks|
  {
    if |tasks| > 0 {
      IncludedPlusFiltered(tasks[..|tasks| - 1], cfg, lists, clock);
    }
  }

  /** A task is kept exactly when it occurs in the input and passes the filter. */
  lemma {:induction false} IncludedMember(tasks: seq<Task>, cfg: FilterConfig, lists: map<string, string>, clock: Clock, t: Task)
    ensures t in Included(tasks, cfg, lists, clock) <==> t in tasks && ShouldInclude(t, cfg, lists, clock)
    decreases |tasks|
  {
    if |tasks| > 0 {
      IncludedMember(tasks[..|tasks| - 1], cfg, lists, clock, t);
      assert tasks == tasks[..|tasks| - 1] + [tasks[|tasks| - 1]];
    }
  }

  /** Without filter options every task is kept, in input order. */
  lemma {:induction false} IncludedNoFilter(tasks: seq<Task>, lists: map<string, string>, clock: Clock)
    ensures Included(tasks, NoFilter, lists, clock) == tasks
    decreases |tasks|
  {
    if |tasks| > 0 {
      IncludedNoFilter(tasks[..|tasks| - 1], lists, clock);
      NoFilterKeepsAll(tasks[|tasks| - 1], lists, clock);
      assert tasks[..|tasks| - 1] + [tasks[|tasks| - 1]] == tasks;
    }
  }

  // ----- One file per list -----

  /**
   * What one pass of the per-list loop produces: the list's id and display
   * name, the file name, the document text, the tasks written into it and the
   * counts the summary reports.
   */
  datatype OutputFile = OutputFile(
    listId: string,
    listName: string,
    fileName: string,
    content: string,
    tasks: seq<Task>,
    taskCount: nat,
    incomplete: nat,
    completed: nat)

  datatype Conversion = Conversion(files: seq<OutputFile>, filteredCount: nat)

  /** The body of the per-list loop for one group of tasks. */
  function ConvertGroup(g: Group<Task>, lists: map<string, string>, notesBySeries: map<string, seq<Note>>, clock: Clock, isAlnum: char -> bool): (f: OutputFile)
    ensures f.listId == g.key && f.tasks == g.members
    ensures f.listName == DisplayName(g.key, lists)
    ensures f.fileName == FileName(f.listName, isAlnum)
    ensures f.content == Document(f.listName, g.members, lists, notesBySeries, clock)
    ensures f.taskCount == |g.members| == f.incomplete + f.completed
    ensures f.completed == CountCompleted(g.members)
  {
    var name := DisplayName(g.key, lists);
    CompletedPlusIncomplete(g.members);
    OutputFile(g.key, name, FileName(name, isAlnum), Document(name, g.members, lists, notesBySeries, clock),
               g.members, |g.members|, CountIncomplete(g.members), CountCompleted(g.members))
  }

  /** Sum of the task counts of the files. */
  function TotalTasks(files: seq<OutputFile>): nat
    decreases |files|
  {
    if |files| == 0 then 0 else files[0].taskCount + TotalTasks(files[1..])
  }

  /** One file per group, in group order. */
  function FilesOf(gs: seq<Group<Task>>, lists: map<string, string>, notesBySeries: map<string, seq<Note>>, clock: Clock, isAlnum: char -> bool): (files: seq<OutputFile>)
    ensures |files| == |gs|
    ensures forall i :: 0 <= i < |gs| ==> files[i] == ConvertGroup(gs[i], lists, notesBySeries, clock, isAlnum)
  {
    seq(|gs|, i requires 0 <= i < |gs| => ConvertGroup(gs[i], lists, notesBySeries, clock, isAlnum))
  }

  /**
   * The whole pass: the notes dictionary, the filter, the grouping by list id,
   * and one file per group in first-seen order of the list ids. Each file
   * holds the kept tasks of its list in input order; the files and the
   * filtered count together account for every input task.
   */
  function Convert(tasks: seq<Task>, notes: seq<Note>, cfg: FilterConfig, lists: map<string, string>, clock: Clock, isAlnum: char -> bool): (c: Conversion)
    ensures c.filteredCount == FilteredCount(tasks, cfg, lists, clock)
    ensures TotalTasks(c.files) + c.filteredCount == |tasks|
    ensures forall i, j :: 0 <= i < j < |c.files| ==> c.files[i].listId != c.files[j].listId
    ensures forall i :: 0 <= i < |c.files| ==> |c.files[i].tasks| > 0
    ensures forall i :: 0 <= i < |c.files| ==>
      c.files[i].tasks == SelectKey(ListIdOf, c.files[i].listId, Included(tasks, cfg, lists, clock))
    ensures forall i :: 0 <= i < |c.files| ==> c.files[i].taskCount == c.files[i].incomplete + c.files[i].completed
    ensures forall i :: 0 <= i < |c.files| ==>
      c.files[i] == ConvertGroup(Group(c.files[i].listId, c.files[i].tasks), lists, NotesBySeries(notes), clock, isAlnum)
  {
    var gs := GroupBy(ListIdOf, Included(tasks, cfg, lists, clock));
    var files := FilesOf(gs, lists, NotesBySeries(notes), clock, isAlnum);
    ConvertFacts(tasks, cfg, lists, clock, gs, files);
    ConvertTotal(tasks, cfg, lists, clock, gs, files);
    Conversion(files, FilteredCount(tasks, cfg, lists, clock))
  }

  lemma ConvertFacts(tasks: seq<Task>, cfg: FilterConfig, lists: map<string, string>, clock: Clock, gs: seq<Group<Task>>, files: seq<OutputFile>)
    requires gs == GroupBy(ListIdOf, Included(tasks, cfg, lists, clock))
    requires |files| == |gs|
    requires forall i :: 0 <= i < |gs| ==>
      && files[i].listId == gs[i].key && files[i].tasks == gs[i].members
      && files[i].taskCount == |gs[i].members| == files[i].incomplete + files[i].completed
    ensures forall i, j :: 0 <= i < j < |files| ==> files[i].listId != files[j].listId
    ensures forall i :: 0 <= i < |files| ==> |files[i].tasks| > 0
    ensures forall i :: 0 <= i < |files| ==>
      files[i].tasks == SelectKey(ListIdOf, files[i].listId, Included(tasks, cfg, lists, clock))
  {
  }

  lemma ConvertTotal(tasks: seq<Task>, cfg: FilterConfig, lists: map<string, string>, clock: Clock, gs: seq<Group<Task>>, files: seq<OutputFile>)
    requires gs == GroupBy(ListIdOf, Included(tasks, cfg, lists, clock))
    requires |files| == |gs|
    requires forall i :: 0 <= i < |gs| ==> files[i].taskCount == |gs[i].members|
    ensures TotalTasks(files) + FilteredCount(tasks, cfg, lists, clock) == |tasks|
  {
    GroupByTotal(ListIdOf, Included(tasks, cfg, lists, clock));
    TotalOfFiles(gs, files);
    IncludedPlusFiltered(tasks, cfg, lists, clock);
  }

  lemma {:induction false} TotalOfFiles(gs: seq<Group<Task>>, files: seq<OutputFile>)
    requires |files| == |gs|
    requires forall i :: 0 <= i < |gs| ==> files[i].taskCount == |gs[i].members|
    ensures TotalTasks(files) == Total(gs)
    decreases |gs|
  {
    if |gs| > 0 {
      TotalOfFiles(gs[1..], files[1..]);
    }
  }

  /** A task is in the file for list `k` iff it passes the filter and its list id is `k`. */
  lemma ConvertFileContents(tasks: seq<Task>, notes: seq<Note>, cfg: FilterConfig, lists: map<string, string>, clock: Clock, isAlnum: char -> bool, c: Conversion)
    requires c == Convert(tasks, notes, cfg, lists, clock, isAlnum)
    ensures forall i, t :: 0 <= i < |c.files| ==>
        (t in c.files[i].tasks <==> t in tasks && ShouldInclude(t, cfg, lists, clock) && t.listId == c.files[i].listId)
  {
    forall i, t | 0 <= i < |c.files|
      ensures t in c.files[i].tasks <==> t in tasks && ShouldInclude(t, cfg, lists, clock) && t.listId == c.files[i].listId
    {
      FileMember(tasks, cfg, lists, clock, c.files[i], t);
    }
  }

  lemma FileMember(tasks: seq<Task>, cfg: FilterConfig, lists: map<string, string>, clock: Clock, f: OutputFile, t: Task)
    requires f.tasks == SelectKey(ListIdOf, f.listId, Included(tasks, cfg, lists, clock))
    ensures t in f.tasks <==> t in tasks && ShouldInclude(t, cfg, lists, clock) && t.listId == f.listId
  {
    SelectKeyMember(ListIdOf, f.listId, Included(tasks, cfg, lists, clock), t);
    IncludedMember(tasks, cfg, lists, clock, t);
  }

  /** Every kept task lands in the file of its own list. */
  lemma ConvertCoversKept(tasks: seq<Task>, notes: seq<Note>, cfg: FilterConfig, lists: map<string, string>, clock: Clock, isAlnum: char -> bool, t: Task)
    requires t in tasks && ShouldInclude(t, cfg, lists, clock)
    ensures var c := Convert(tasks, notes, cfg, lists, clock, isAlnum);
      exists i :: 0 <= i < |c.files| && c.files[i].listId == t.listId && t in c.files[i].tasks
  {
    var c := Convert(tasks, notes, cfg, lists, clock, isAlnum);
    var kept := Included(tasks, cfg, lists, clock);
    IncludedMember(tasks, cfg, lists, clock, t);
    ExactlyOneGroup(ListIdOf, kept, t);
    var gs := GroupBy(ListIdOf, kept);
    var i :| 0 <= i < |gs| && gs[i].key == ListIdOf(t);
    SelectKeyMember(ListIdOf, gs[i].key, kept, t);
    assert c.files[i].listId == t.listId && t in c.files[i].tasks;
  }

  /** The list ids of the files, in the order they are written. */
  function ListIds(files: seq<OutputFile>): (ids: seq<string>)
    ensures |ids| == |files|
    ensures forall i :: 0 <= i < |files| ==> ids[i] == files[i].listId
  {
    seq(|files|, i requires 0 <= i < |files| => files[i].listId)
  }

  /** The files are written in the order in which each list id first occurs among the kept tasks. */
  lemma ConvertOrder(tasks: seq<Task>, notes: seq<Note>, cfg: FilterConfig, lists: map<string, string>, clock: Clock, isAlnum: char -> bool)
    ensures ListIds(Convert(tasks, notes, cfg, lists, clock, isAlnum).files) == FirstSeen(ListIdOf, Included(tasks, cfg, lists, clock))
  {
    var kept := Included(tasks, cfg, lists, clock);
    var gs := GroupBy(ListIdOf, kept);
    GroupByKeyOrder(ListIdOf, kept);
    assert ListIds(Convert(tasks, notes, cfg, lists, clock, isAlnum).files) == Keys(gs);
  }

  // ----- Writing the files -----

  /**
   * The output directory after the per-list loop has written `files` in
   * order into `before`, file name to content. Opening a name with mode
   * `'w'` replaces what was there, whether an earlier pass or an older run
   * put it there; names no pass writes are left alone.
   */
  function WriteAll(before: map<string, string>, files: seq<OutputFile>): (dir: map<string, string>)
    ensures forall n :: n in dir <==> n in before || exists i :: 0 <= i < |files| && files[i].fileName == n
    decreases |files|
  {
    if |files| == 0 then before
    else
      var last := files[|files| - 1];
      var dir := WriteAll(before, files[..|files| - 1]) [last.fileName := last.content];
      assert forall i :: 0 <= i < |files| - 1 ==> files[..|files| - 1][i] == files[i];
      dir
  }

  /** A file no pass writes keeps what it held before the run. */
  lemma {:induction false} WriteAllKeepsOthers(before: map<string, string>, files: seq<OutputFile>, n: string)
    requires n in before
    requires forall i :: 0 <= i < |files| ==> files[i].fileName != n
    ensures WriteAll(before, files)[n] == before[n]
    decreases |files|
  {
    if |files| > 0 {
      var init := files[..|files| - 1];
      assert forall i :: 0 <= i < |init| ==> init[i] == files[i];
      WriteAllKeepsOthers(before, init, n);
    }
  }

  /** Each written file holds the content of the last pass that wrote its name. */
  lemma {:induction false} WriteAllLastWins(before: map<string, string>, files: seq<OutputFile>, i: nat)
    requires i < |files|
    requires forall j :: i < j < |files| ==> files[j].fileName != files[i].fileName
    ensures WriteAll(before, files)[files[i].fileName] == files[i].content
    decreases |files|
  {
    if i < |files| - 1 {
      var init := files[..|files| - 1];
      assert init[i] == files[i];
      WriteAllLastWins(before, init, i);
    }
  }

  /** With pairwise distinct file names, every list's document survives on disk. */
  lemma WriteAllDistinct(before: map<string, string>, files: seq<OutputFile>)
    requires forall i, j :: 0 <= i < j < |files| ==> files[i].fileName != files[j].fileName
    ensures forall i :: 0 <= i < |files| ==> WriteAll(before, files)[files[i].fileName] == files[i].content
  {
    forall i | 0 <= i < |files| ensures WriteAll(before, files)[files[i].fileName] == files[i].content {
      WriteAllLastWins(before, files, i);
    }
  }

  // ----- The TUI's entry point -----

  /** The text of the TUI's cutoff field: blank, a valid `YYYY-MM-DD` date, or anything else. */
  datatype DateEntry = Blank | Parsed(date: Civil) | Unparseable

  /** The cutoff the TUI hands to the filter: the parsed date, or none for a blank field. */
  function CutoffOf(entry: DateEntry): (r: Option<Civil>)
    ensures r.Some? <==> entry.Parsed?
    ensures entry.Parsed? ==> r.value == entry.date
  {
    if entry.Parsed? then Some(entry.date) else None
  }

  /** The argument object the TUI builds: the selected names, no exclusions. */
  function TuiConfig(selected: seq<string>, incompleteOnly: bool, cutoff: Option<Civil>): (cfg: FilterConfig)
    ensures cfg.lists == Some(selected) && cfg.excludeLists.None?
    ensures cfg.incompleteOnly == incompleteOnly && cfg.skipCompletedBefore == cutoff
  {
    FilterConfig(Some(selected), None, incompleteOnly, cutoff)
  }

  /**
   * `action_convert`: nothing is produced when no list is selected or the
   * cutoff text does not parse; otherwise the shared pass runs with the TUI's
   * filter options.
   */
  function TuiConvert(selected: seq<string>, incompleteOnly: bool, entry: DateEntry,
                      tasks: seq<Task>, notes: seq<Note>, lists: map<string, string>,
                      clock: Clock, isAlnum: char -> bool): (r: Option<Conversion>)
    ensures r.None? <==> |selected| == 0 || entry.Unparseable?
    ensures r.Some? ==> TotalTasks(r.value.files) + r.value.filteredCount == |tasks|
    ensures r.Some? ==>
      r.value == Convert(tasks, notes, TuiConfig(selected, incompleteOnly, CutoffOf(entry)), lists, clock, isAlnum)
  {
    if |selected| == 0 then None
    else match entry
      case Unparseable => None
      case Blank => Some(Convert(tasks, notes, TuiConfig(selected, incompleteOnly, None), lists, clock, isAlnum))
      case Parsed(d) => Some(Convert(tasks, notes, TuiConfig(selected, incompleteOnly, Some(d)), lists, clock, isAlnum))
  }

  /**
   * Whatever the TUI writes belongs to a selected list, and every open task
   * of a selected list is written into the file of its own list.
   */
  lemma TuiOnlySelected(selected: seq<string>, incompleteOnly: bool, entry: DateEntry,
                        tasks: seq<Task>, notes: seq<Note>, lists: map<string, string>,
                        clock: Clock, isAlnum: char -> bool)
    requires |selected| > 0 && !entry.Unparseable?
    ensures var c := TuiConvert(selected, incompleteOnly, entry, tasks, notes, lists, clock, isAlnum).value;
      forall i, t :: 0 <= i < |c.files| && t in c.files[i].tasks ==> ListNameOf(t, lists) in selected
    ensures var c := TuiConvert(selected, incompleteOnly, entry, tasks, notes, lists, clock, isAlnum).value;
      forall t :: t in tasks && !IsCompleted(t) && ListNameOf(t, lists) in selected ==>
        exists i :: 0 <= i < |c.files| && c.files[i].listId == t.listId && t in c.files[i].tasks
  {
    var cfg := TuiConfig(selected, incompleteOnly, CutoffOf(entry));
    var c := Convert(tasks, notes, cfg, lists, clock, isAlnum);
    assert TuiConvert(selected, incompleteOnly, entry, tasks, notes, lists, clock, isAlnum).value == c;
    TuiWritesSelected(selected, cfg, tasks, notes, lists, clock, isAlnum, c);
    TuiWritesOpen(selected, cfg, tasks, notes, lists, clock, isAlnum, c);
  }

  lemma TuiWritesSelected(selected: seq<string>, cfg: FilterConfig, tasks: seq<Task>, notes: seq<Note>,
                          lists: map<string, string>, clock: Clock, isAlnum: char -> bool, c: Conversion)
    requires cfg.lists == Some(selected) && |selected| > 0
    requires c == Convert(tasks, notes, cfg, lists, clock, isAlnum)
    ensures forall i, t :: 0 <= i < |c.files| && t in c.files[i].tasks ==> ListNameOf(t, lists) in selected
  {
    ConvertFileContents(tasks, notes, cfg, lists, clock, isAlnum, c);
  }

  lemma TuiWritesOpen(selected: seq<string>, cfg: FilterConfig, tasks: seq<Task>, notes: seq<Note>,
                      lists: map<string, string>, clock: Clock, isAlnum: char -> bool, c: Conversion)
    requires cfg.lists == Some(selected) && cfg.excludeLists.None?
    requires c == Convert(tasks, notes, cfg, lists, clock, isAlnum)
    ensures forall t :: t in tasks && !IsCompleted(t) && ListNameOf(t, lists) in selected ==>
      exists i :: 0 <= i < |c.files| && c.files[i].listId == t.listId && t in c.files[i].tasks
  {
    forall t | t in tasks && !IsCompleted(t) && ListNameOf(t, lists) in selected
      ensures exists i :: 0 <= i < |c.files| && c.files[i].listId == t.listId && t in c.files[i].tasks
    {
      CutoffSparesIncomplete(t, cfg, lists, clock);
      ConvertCoversKept(tasks, notes, cfg, lists, clock, isAlnum, t);
    }
  }
}

=== FILE: records.dfy ===
/**
 * Remember The Milk export records as the converter reads them: a task, a
 * note, and Python's truthiness test on an optional field.
 */
module Records {

  import opened Wrappers

  /** A JSON field read with `dict.get(key, default)`: the key may be missing, null, or carry a value. */
  datatype Field<T> = Missing | Null | Present(value: T)

  /**
   * One task. `listId` and `seriesId` are the text of `str(task.get(key, ''))`,
   * so a missing key is the empty text; `tags` is empty when absent; the
   * `*HasTime` flags are false when absent. Identifiers are held as the text
   * Python's f-strings render for them.
   */
  datatype Task = Task(
    id: string,
    parentId: Option<string>,
    seriesId: string,
    listId: string,
    name: Field<string>,
    priority: Option<string>,
    dateDue: Option<int>,
    dateDueHasTime: bool,
    dateStart: Option<int>,
    dateStartHasTime: bool,
    dateCompleted: Option<int>,
    dateCreated: Option<int>,
    dateModified: Option<int>,
    repeat: Option<string>,
    url: Option<string>,
    tags: seq<string>,
    postponed: Option<int>)

  /** One note; `seriesId` is `str(note.get('series_id', ''))`, `content` is `note.get('content')`. */
  datatype Note = Note(seriesId: string, content: Option<string>)

  /** Python truthiness of an optional timestamp or counter: present and non-zero. */
  predicate IsSetInt(o: Option<int>) {
    o.Some? && o.value != 0
  }

  /** Python truthiness of an optional text: present and non-empty. */
  predicate IsSetText(o: Option<string>) {
    o.Some? && o.value != ""
  }

  /** `task.get('date_completed')` is truthy. */
  predicate IsCompleted(t: Task) {
    IsSetInt(t.dateCompleted)
  }

  function ListIdOf(t: Task): string {
    t.listId
  }

  function SeriesIdOf(n: Note): string {
    n.seriesId
  }

  /** `sum(1 for t in tasks if t.get('date_completed'))`. */
  function CountCompleted(ts: seq<Task>): nat
    decreases |ts|
  {
    if |ts| == 0 then 0
    else CountCompleted(ts[..|ts| - 1]) + (if IsCompleted(ts[|ts| - 1]) then 1 else 0)
  }

  /** `sum(1 for t in tasks if not t.get('date_completed'))`. */
  function CountIncomplete(ts: seq<Task>): nat
    decreases |ts|
  {
    if |ts| == 0 then 0
    else CountIncomplete(ts[..|ts| - 1]) + (if IsCompleted(ts[|ts| - 1]) then 0 else 1)
  }

  /** Every task is counted exactly once, as completed or as incomplete. */
  lemma {:induction false} CompletedPlusIncomplete(ts: seq<Task>)
    ensures CountCompleted(ts) + CountIncomplete(ts) == |ts|
    decreases |ts|
  {
    if |ts| > 0 {
      CompletedPlusIncomplete(ts[..|ts| - 1]);
    }
  }
}

=== FILE: seqs.dfy ===
/** Generic sequence helpers shared by the mapper and the grouping layer. */
module Seqs {

  /** The concatenation, in order, of a sequence of sequences. */
  function Flatten<T>(xss: seq<seq<T>>): seq<T>
    decreases |xss|
  {
    if |xss| == 0 then [] else xss[0] + Flatten(xss[1..])
  }

  lemma {:induction false} FlattenAppend<T>(xss: seq<seq<T>>, yss: seq<seq<T>>)
    ensures Flatten(xss + yss) == Flatten(xss) + Flatten(yss)
    decreases |xss|
  {
    if |xss| == 0 {
      assert xss + yss == yss;
    } else {
      assert (xss + yss)[1..] == xss[1..] + yss;
      FlattenAppend(xss[1..], yss);
    }
  }

  /** An element of the flattening comes from exactly the inner sequences that hold it. */
  lemma {:induction false} FlattenMember<T>(xss: seq<seq<T>>, x: T)
    ensures x in Flatten(xss) <==> exists i :: 0 <= i < |xss| && x in xss[i]
    decreases |xss|
  {
    if |xss| > 0 {
      FlattenMember(xss[1..], x);
      if x in Flatten(xss[1..]) {
        var i :| 0 <= i < |xss[1..]| && x in xss[1..][i];
        assert x in xss[i + 1];
      }
      if exists i :: 0 < i < |xss| && x in xss[i] {
        var i :| 0 < i < |xss| && x in xss[i];
        assert x in xss[1..][i - 1];
      }
    }
  }
}

=== FILE: tally.dfy ===
/**
 * The per-list task tally the TUI computes when it loads an export: for every
 * list id, how many tasks it has and how many of them are open or completed.
 */
module Tally {

  import opened Records
  import opened Grouping

  datatype Counts = Counts(total: nat, incomplete: nat, completed: nat)

  /** The counts a list with exactly the tasks `ts` should show. */
  function CountsOf(ts: seq<Task>): (c: Counts)
    ensures c.total == c.incomplete + c.completed
  {
    CompletedPlusIncomplete(ts);
    Counts(|ts|, CountIncomplete(ts), CountCompleted(ts))
  }

  /** The tasks filed under `listId`, in input order. */
  function TasksOfList(listId: string, tasks: seq<Task>): seq<Task> {
    SelectKey(ListIdOf, listId, tasks)
  }

  /**
   * `load_data`'s counting loop: one entry per list id that occurs, with the
   * number of its tasks, of its completed ones (truthy `date_completed`) and
   * of its open ones.
   */
  method TallyByList(tasks: seq<Task>) returns (counts: map<string, Counts>)
    ensures forall k :: k in counts <==> exists i :: 0 <= i < |tasks| && tasks[i].listId == k
    ensures forall k :: k in counts ==>
      && counts[k].total == |TasksOfList(k, tasks)|
      && counts[k].completed == CountCompleted(TasksOfList(k, tasks))
      && counts[k].incomplete == CountIncomplete(TasksOfList(k, tasks))
    ensures forall k :: k in counts ==> counts[k].total == counts[k].incomplete + counts[k].completed
  {
    counts := map[];
    var n := 0;
    while n < |tasks|
      invariant 0 <= n <= |tasks|
      invariant TallyOfPrefix(tasks, n, counts)
    {
      var t := tasks[n];
      var prev := if t.listId in counts then counts[t.listId] else Counts(0, 0, 0);
      var c := prev.(total := prev.total + 1);
      if IsCompleted(t) {
        c := c.(completed := c.completed + 1);
      } else {
        c := c.(incomplete := c.incomplete + 1);
      }
      var next := counts[t.listId := c];
      AdvanceKeys(tasks, n, counts, next, c);
      AdvanceValues(tasks, n, counts, prev, next);
      counts := next;
      n := n + 1;
    }
    assert tasks[..n] == tasks;
  }

  /** The loop invariant: `counts` is the tally of the first `n` tasks. */
  ghost predicate TallyOfPrefix(tasks: seq<Task>, n: nat, counts: map<string, Counts>)
    requires n <= |tasks|
  {
    && (forall k :: k in counts <==> exists i :: 0 <= i < n && tasks[i].listId == k)
    && (forall k :: k in counts ==> counts[k] == CountsOf(TasksOfList(k, tasks[..n])))
  }

  lemma AdvanceKeys(tasks: seq<Task>, n: nat, counts: map<string, Counts>, next: map<string, Counts>, c: Counts)
    requires n < |tasks|
    requires forall k :: k in counts <==> exists i :: 0 <= i < n && tasks[i].listId == k
    requires next == counts[tasks[n].listId := c]
    ensures forall k :: k in next <==> exists i :: 0 <= i < n + 1 && tasks[i].listId == k
  {
    forall k ensures k in next <==> exists i :: 0 <= i < n + 1 && tasks[i].listId == k {
      if k in next && k != tasks[n].listId {
        var i :| 0 <= i < n && tasks[i].listId == k;
      }
    }
  }

  lemma AdvanceValues(tasks: seq<Task>, n: nat, counts: map<string, Counts>, prev: Counts, next: map<string, Counts>)
    requires n < |tasks|
    requires forall k :: k in counts <==> exists i :: 0 <= i < n && tasks[i].listId == k
    requires forall k :: k in counts ==> counts[k] == CountsOf(TasksOfList(k, tasks[..n]))
    requires prev == if tasks[n].listId in counts then counts[tasks[n].listId] else Counts(0, 0, 0)
    requires next == counts[tasks[n].listId := Counts(prev.total + 1,
      prev.incomplete + (if IsCompleted(tasks[n]) then 0 else 1),
      prev.completed + (if IsCompleted(tasks[n]) then 1 else 0))]
    ensures forall k :: k in next ==> next[k] == CountsOf(TasksOfList(k, tasks[..n + 1]))
  {
    var id := tasks[n].listId;
    AdvanceOwn(tasks, n, prev, id in counts);
    forall k | k in next ensures next[k] == CountsOf(TasksOfList(k, tasks[..n + 1])) {
      if k != id {
        AdvanceOther(tasks, n, k);
      }
    }
  }

  /** The entry of task `n`'s own list gains that task. */
  lemma AdvanceOwn(tasks: seq<Task>, n: nat, prev: Counts, seen: bool)
    requires n < |tasks|
    requires !seen ==> forall i :: 0 <= i < n ==> tasks[i].listId != tasks[n].listId
    requires prev == if seen then CountsOf(TasksOfList(tasks[n].listId, tasks[..n])) else Counts(0, 0, 0)
    ensures CountsOf(TasksOfList(tasks[n].listId, tasks[..n + 1])) == Counts(prev.total + 1,
      prev.incomplete + (if IsCompleted(tasks[n]) then 0 else 1),
      prev.completed + (if IsCompleted(tasks[n]) then 1 else 0))
  {
    var id := tasks[n].listId;
    TallyStep(tasks, n, id, seen);
    CountsSnoc(TasksOfList(id, tasks[..n]), tasks[n]);
  }

  /** The entries of the other lists are unchanged. */
  lemma AdvanceOther(tasks: seq<Task>, n: nat, k: string)
    requires n < |tasks| && k != tasks[n].listId
    ensures TasksOfList(k, tasks[..n + 1]) == TasksOfList(k, tasks[..n])
  {
    TallyStep(tasks, n, k, true);
    assert TasksOfList(k, tasks[..n]) + [] == TasksOfList(k, tasks[..n]);
  }

  /** One step of the loop: how a list's tasks grow when the prefix takes one more task. */
  lemma TallyStep(tasks: seq<Task>, n: nat, k: string, seen: bool)
    requires n < |tasks|
    requires !seen ==> forall i :: 0 <= i < n ==> tasks[i].listId != k
    ensures TasksOfList(k, tasks[..n + 1])
      == TasksOfList(k, tasks[..n]) + (if tasks[n].listId == k then [tasks[n]] else [])
    ensures !seen ==> TasksOfList(k, tasks[..n]) == []
  {
    assert tasks[..n + 1][..n] == tasks[..n];
    if !seen {
      SelectKeyNone(ListIdOf, k, tasks[..n]);
    }
  }

  /** Appending one task moves the counts by one in the matching column. */
  lemma CountsSnoc(ts: seq<Task>, t: Task)
    ensures CountsOf(ts + [t]) == Counts(|ts| + 1,
      CountsOf(ts).incomplete + (if IsCompleted(t) then 0 else 1),
      CountsOf(ts).completed + (if IsCompleted(t) then 1 else 0))
  {
    assert (ts + [t])[..|ts|] == ts;
  }

  /**
   * The tally agrees with the grouping the conversion uses: each group of
   * the export's tasks has the tally's total, and the totals add up to the
   * number of tasks.
   */
  lemma TallyMatchesGroups(tasks: seq<Task>, counts: map<string, Counts>)
    requires forall k :: k in counts <==> exists i :: 0 <= i < |tasks| && tasks[i].listId == k
    requires forall k :: k in counts ==> counts[k].total == |TasksOfList(k, tasks)|
    ensures var gs := GroupBy(ListIdOf, tasks);
      && (forall i :: 0 <= i < |gs| ==> gs[i].key in counts && counts[gs[i].key].total == |gs[i].members|)
      && Total(gs) == |tasks|
  {
    var gs := GroupBy(ListIdOf, tasks);
    forall i | 0 <= i < |gs| ensures gs[i].key in counts && counts[gs[i].key].total == |gs[i].members| {
      var x := gs[i].members[0];
      SelectKeyMember(ListIdOf, gs[i].key, tasks, x);
      var j :| 0 <= j < |tasks| && tasks[j] == x;
    }
    GroupByTotal(ListIdOf, tasks);
  }
}

=== FILE: text.dfy ===
/** Joining and splitting text on a separator; CRLF framing of section 3.1 of RFC 5545. */
module Text {

  import opened Seqs

  /** The line terminator that section 3.1 of RFC 5545 mandates between content lines. */
  const CRLF: string := "\r\n"

  /** `sep.join(parts)`: the parts in order with `sep` between neighbours. */
  function Join(sep: string, parts: seq<string>): string
    decreases |parts|
  {
    if |parts| == 0 then ""
    else if |parts| == 1 then parts[0]
    else parts[0] + sep + Join(sep, parts[1..])
  }

  /** `[sep.join(b) for b in blocks]`. */
  function JoinEach(sep: string, blocks: seq<seq<string>>): (r: seq<string>)
    ensures |r| == |blocks|
    ensures forall i :: 0 <= i < |blocks| ==> r[i] == Join(sep, blocks[i])
  {
    seq(|blocks|, i requires 0 <= i < |blocks| => Join(sep, blocks[i]))
  }

  lemma {:induction false} JoinAppend(sep: string, a: seq<string>, b: seq<string>)
    requires |a| > 0 && |b| > 0
    ensures Join(sep, a + b) == Join(sep, a) + sep + Join(sep, b)
    decreases |a|
  {
    if |a| == 1 {
      assert (a + b)[1..] == b;
    } else {
      assert (a + b)[1..] == a[1..] + b;
      JoinAppend(sep, a[1..], b);
    }
  }

  /** Joining already-joined non-empty blocks is joining their lines. */
  lemma {:induction false} JoinFlatten(sep: string, blocks: seq<seq<string>>)
    requires forall i :: 0 <= i < |blocks| ==> |blocks[i]| > 0
    ensures |blocks| > 0 ==> |Flatten(blocks)| > 0
    ensures Join(sep, JoinEach(sep, blocks)) == Join(sep, Flatten(blocks))
    decreases |blocks|
  {
    if |blocks| == 1 {
      assert Flatten(blocks) == blocks[0] + Flatten(blocks[1..]);
      assert blocks[0] + [] == blocks[0];
    } else if |blocks| > 1 {
      var rest := blocks[1..];
      JoinFlatten(sep, rest);
      assert JoinEach(sep, blocks)[1..] == JoinEach(sep, rest);
      assert JoinEach(sep, blocks) == [Join(sep, blocks[0])] + JoinEach(sep, rest);
      JoinAppend(sep, blocks[0], Flatten(rest));
    }
  }

  /** A document whose middle lines are themselves joined blocks reads as one flat line sequence. */
  lemma {:induction false} JoinEnvelope(sep: string, head: seq<string>, blocks: seq<seq<string>>, tail: seq<string>)
    requires |head| > 0 && |tail| > 0
    requires forall i :: 0 <= i < |blocks| ==> |blocks[i]| > 0
    ensures Join(sep, head + JoinEach(sep, blocks) + tail) == Join(sep, head + Flatten(blocks) + tail)
  {
    JoinFlatten(sep, blocks);
    if |blocks| > 0 {
      var mid := JoinEach(sep, blocks);
      var flat := Flatten(blocks);
      assert head + mid + tail == head + (mid + tail);
      assert head + flat + tail == head + (flat + tail);
      JoinAppend(sep, head, mid + tail);
      JoinAppend(sep, mid, tail);
      JoinAppend(sep, head, flat + tail);
      JoinAppend(sep, flat, tail);
    } else {
      assert JoinEach(sep, blocks) == [] == Flatten(blocks);
    }
  }

  /** `s.split('\r\n')`: the pieces between CRLF terminators, always at least one. */
  function SplitCrlf(s: string): (r: seq<string>)
    ensures |r| >= 1
    decreases |s|
  {
    if |s| < 2 then [s]
    else if s[0] == '\r' && s[1] == '\n' then [""] + SplitCrlf(s[2..])
    else
      var rest := SplitCrlf(s[1..]);
      [[s[0]] + rest[0]] + rest[1..]
  }

  lemma {:induction false} SplitSingle(a: string)
    requires '\n' !in a
    ensures SplitCrlf(a) == [a]
    decreases |a|
  {
    if |a| >= 2 {
      assert a[1] != '\n';
      SplitSingle(a[1..]);
      assert [a[0]] + a[1..] == a;
    }
  }

  lemma {:induction false} SplitLine(a: string, b: string)
    requires '\n' !in a
    ensures SplitCrlf(a + CRLF + b) == [a] + SplitCrlf(b)
    decreases |a|
  {
    var s := a + CRLF + b;
    if |a| == 0 {
      assert s == CRLF + b;
      assert s[2..] == b;
    } else {
      assert s[0] == a[0];
      assert s[1] == if |a| > 1 then a[1] else '\r';
      assert s[1..] == a[1..] + CRLF + b;
      SplitLine(a[1..], b);
      assert [a[0]] + a[1..] == a;
    }
  }

  /** Splitting a CRLF-joined sequence of line-break-free lines gives the lines back. */
  lemma {:induction false} SplitJoin(lines: seq<string>)
    requires |lines| >= 1
    requires forall i :: 0 <= i < |lines| ==> '\n' !in lines[i]
    ensures SplitCrlf(Join(CRLF, lines)) == lines
    decreases |lines|
  {
    if |lines| == 1 {
      SplitSingle(lines[0]);
    } else {
      SplitJoin(lines[1..]);
      SplitLine(lines[0], Join(CRLF, lines[1..]));
      assert [lines[0]] + lines[1..] == lines;
    }
  }
}

=== FILE: vtodo.dfy ===
/**
 * `convert_task_to_vtodo`: one task record to one VTODO component of RFC 5545.
 *
 * The block is built as a sequence of content lines (section 3.1), one segment
 * per property in the converter's fixed emission order; a segment holds zero or
 * one line. Rendering a content line reproduces the converter's text
 * `NAME:value` or `NAME;VALUE=DATE:value`, and the lines are joined with CRLF.
 */
module VTodo {

  import opened Wrappers
  import opened Seqs
  import opened Text
  import opened Decimal
  import opened Escape
  import opened Records
  import opened Fields

  /** A content line: property name, whether it carries `;VALUE=DATE`, and the value text. */
  datatype ContentLine = ContentLine(name: string, dateValue: bool, value: string)

  function Render(l: ContentLine): string {
    l.name + (if l.dateValue then ";VALUE=DATE" else "") + ":" + l.value
  }

  /**
   * The text of a content line: the property name, then `;VALUE=DATE`
   * exactly when the line carries a date, then `:` and the value.
   */
  lemma RenderParts(l: ContentLine, r: string)
    requires r == Render(l)
    ensures var n := |l.name|;
      var q := if l.dateValue then 11 else 0;
      && |r| == n + q + 1 + |l.value|
      && r[..n] == l.name
      && (l.dateValue ==> r[n..n + q] == ";VALUE=DATE")
      && r[n + q] == ':'
      && r[n + q + 1..] == l.value
  {
  }

  function RenderAll(ls: seq<ContentLine>): (r: seq<string>)
    ensures |r| == |ls|
    ensures forall i :: 0 <= i < |ls| ==> r[i] == Render(ls[i])
  {
    seq(|ls|, i requires 0 <= i < |ls| => Render(ls[i]))
  }

  const UidPrefix: string := "rtm-"
  const UntitledTask: string := "Untitled Task"

  /** Number of property slots of a VTODO block, BEGIN and END included. */
  const FieldCount: nat := 17

  /** Position of a property in the converter's emission order; -1 for any other name. */
  function Rank(name: string): int {
    if name == "BEGIN" then 0
    else if name == "UID" then 1
    else if name == "RELATED-TO" then 2
    else if name == "SUMMARY" then 3
    else if name == "PRIORITY" then 4
    else if name == "DUE" then 5
    else if name == "DTSTART" then 6
    else if name == "STATUS" then 7
    else if name == "COMPLETED" then 8
    else if name == "CREATED" then 9
    else if name == "LAST-MODIFIED" then 10
    else if name == "RRULE" then 11
    else if name == "URL" then 12
    else if name == "CATEGORIES" then 13
    else if name == "DESCRIPTION" then 14
    else if name == "X-RTM-POSTPONE-COUNT" then 15
    else if name == "END" then 16
    else -1
  }

  /** `f"rtm-{id}"`. */
  function Uid(id: string): string {
    UidPrefix + id
  }

  /** The text handed to the escaper for SUMMARY: the placeholder only when the key is missing. */
  function Title(name: Field<string>): Option<string> {
    match name
    case Missing => Some(UntitledTask)
    case Null => None
    case Present(s) => Some(s)
  }

  /** The record-level granularity decision: time of day for both dates if either has one. */
  function UseTime(t: Task): bool {
    t.dateDueHasTime || t.dateStartHasTime
  }

  /** The task's list name when `list_id` is non-empty and resolves. */
  function ResolvedListName(t: Task, lists: map<string, string>): Option<string> {
    if t.listId != "" && t.listId in lists then Some(lists[t.listId]) else None
  }

  /** The CATEGORIES elements: the tags, then the resolved list name. */
  function Categories(t: Task, lists: map<string, string>): seq<string> {
    t.tags + match ResolvedListName(t, lists) case Some(n) => [n] case None => []
  }

  /** The non-empty note contents, in arrival order. */
  function NoteTexts(notes: seq<Note>): (r: seq<string>)
    ensures forall i :: 0 <= i < |r| ==> r[i] != ""
    ensures |r| <= |notes|
    ensures |r| > 0 <==> exists i :: 0 <= i < |notes| && IsSetText(notes[i].content)
    decreases |notes|
  {
    if |notes| == 0 then []
    else
      var n := notes[0];
      (if IsSetText(n.content) then [n.content.value] else []) + NoteTexts(notes[1..])
  }

  /** One note contributes its content exactly when that content is set. */
  lemma NoteTextsSingle(n: Note)
    ensures NoteTexts([n]) == if IsSetText(n.content) then [n.content.value] else []
  {
    assert [n][1..] == [];
  }

  /** The texts of consecutive runs of notes are consecutive: order is kept. */
  lemma {:induction false} NoteTextsAppend(a: seq<Note>, b: seq<Note>)
    ensures NoteTexts(a + b) == NoteTexts(a) + NoteTexts(b)
    decreases |a|
  {
    if |a| > 0 {
      NoteTextsAppend(a[1..], b);
      assert (a + b)[1..] == a[1..] + b;
      assert (a + b)[0] == a[0];
    } else {
      assert a + b == b;
    }
  }

  /** The note texts of the task's series, or none when `series_id` is empty or unknown. */
  function DescriptionParts(t: Task, notesBySeries: map<string, seq<Note>>): seq<string> {
    if t.seriesId != "" && t.seriesId in notesBySeries then NoteTexts(notesBySeries[t.seriesId]) else []
  }

  /** A DUE/DTSTART/COMPLETED/CREATED/LAST-MODIFIED line when the timestamp is set. */
  function DateSegment(name: string, timestampMs: Option<int>, useTime: bool, clock: Clock): seq<ContentLine> {
    match FormatDateTime(timestampMs, useTime, clock)
    case Some(v) => [ContentLine(name, !useTime, v)]
    case None => []
  }

  /** RELATED-TO, when `parent_id` is set. */
  function RelatedSegment(t: Task): seq<ContentLine> {
    if IsSetText(t.parentId) then [ContentLine("RELATED-TO", false, Uid(t.parentId.value))] else []
  }

  /** PRIORITY, when the RTM priority maps to a defined level. */
  function PrioritySegment(t: Task): seq<ContentLine> {
    if IsSetText(t.priority) && ConvertPriority(t.priority.value) > 0
    then [ContentLine("PRIORITY", false, NatToDecimal(ConvertPriority(t.priority.value)))]
    else []
  }

  /** RRULE, when the repeat rule is set. */
  function RuleSegment(t: Task): seq<ContentLine> {
    match ConvertRecurrence(t.repeat)
    case Some(rule) => [ContentLine("RRULE", false, rule)]
    case None => []
  }

  /** URL, when set. */
  function UrlSegment(t: Task): seq<ContentLine> {
    if IsSetText(t.url) then [ContentLine("URL", false, EscapeText(t.url))] else []
  }

  /** CATEGORIES, when there are tags or a resolved list name. */
  function CategoriesSegment(t: Task, lists: map<string, string>): seq<ContentLine> {
    var cats := Categories(t, lists);
    if |cats| > 0 then [ContentLine("CATEGORIES", false, Join(",", EscapeList(cats)))] else []
  }

  /** DESCRIPTION, when the series has note texts. */
  function DescriptionSegment(t: Task, notesBySeries: map<string, seq<Note>>): seq<ContentLine> {
    var parts := DescriptionParts(t, notesBySeries);
    if |parts| > 0 then [ContentLine("DESCRIPTION", false, EscapeText(Some(Join("\n\n", parts))))] else []
  }

  /** X-RTM-POSTPONE-COUNT, when `postponed` is set. */
  function VendorSegment(t: Task): seq<ContentLine> {
    if IsSetInt(t.postponed) then [ContentLine("X-RTM-POSTPONE-COUNT", false, IntToDecimal(t.postponed.value))] else []
  }

  /** The lines the converter emits for property slot `k`, in source order. */
  function Segment(k: nat, t: Task, lists: map<string, string>, notesBySeries: map<string, seq<Note>>, clock: Clock): seq<ContentLine>
    requires k < FieldCount
  {
    if k == 0 then [ContentLine("BEGIN", false, "VTODO")]
    else if k == 1 then [ContentLine("UID", false, Uid(t.id))]
    else if k == 2 then RelatedSegment(t)
    else if k == 3 then [ContentLine("SUMMARY", false, EscapeText(Title(t.name)))]
    else if k == 4 then PrioritySegment(t)
    else if k == 5 then DateSegment("DUE", t.dateDue, UseTime(t), clock)
    else if k == 6 then DateSegment("DTSTART", t.dateStart, UseTime(t), clock)
    else if k == 7 then [ContentLine("STATUS", false, if IsCompleted(t) then "COMPLETED" else "NEEDS-ACTION")]
    else if k == 8 then DateSegment("COMPLETED", t.dateCompleted, true, clock)
    else if k == 9 then DateSegment("CREATED", t.dateCreated, true, clock)
    else if k == 10 then DateSegment("LAST-MODIFIED", t.dateModified, true, clock)
    else if k == 11 then RuleSegment(t)
    else if k == 12 then UrlSegment(t)
    else if k == 13 then CategoriesSegment(t, lists)
    else if k == 14 then DescriptionSegment(t, notesBySeries)
    else if k == 15 then VendorSegment(t)
    else [ContentLine("END", false, "VTODO")]
  }

  function Segments(t: Task, lists: map<string, string>, notesBySeries: map<string, seq<Note>>, clock: Clock): (segs: seq<seq<ContentLine>>)
    ensures |segs| == FieldCount
    ensures forall k :: 0 <= k < FieldCount ==> segs[k] == Segment(k, t, lists, notesBySeries, clock)
  {
    seq(FieldCount, k requires 0 <= k < FieldCount => Segment(k, t, lists, notesBySeries, clock))
  }

  /** Property names appear in strictly increasing emission order, so each at most once. */
  predicate InFieldOrder(props: seq<ContentLine>) {
    forall i, j :: 0 <= i < j < |props| ==> Rank(props[i].name) < Rank(props[j].name)
  }

  /** Some line of the block has property name `name`. */
  predicate HasProperty(props: seq<ContentLine>, name: string) {
    exists l :: l in props && l.name == name
  }

  /** Segment `k` holds at most one line, and only lines of the property ranked `k`. */
  lemma SegmentRank(k: nat, t: Task, lists: map<string, string>, notesBySeries: map<string, seq<Note>>, clock: Clock)
    requires k < FieldCount
    ensures |Segment(k, t, lists, notesBySeries, clock)| <= 1
    ensures forall l :: l in Segment(k, t, lists, notesBySeries, clock) ==> Rank(l.name) == k
  {
    var seg := Segment(k, t, lists, notesBySeries, clock);
    var name := if k == 0 then "BEGIN"
      else if k == 1 then "UID"
      else if k == 2 then "RELATED-TO"
      else if k == 3 then "SUMMARY"
      else if k == 4 then "PRIORITY"
      else if k == 5 then "DUE"
      else if k == 6 then "DTSTART"
      else if k == 7 then "STATUS"
      else if k == 8 then "COMPLETED"
      else if k == 9 then "CREATED"
      else if k == 10 then "LAST-MODIFIED"
      else if k == 11 then "RRULE"
      else if k == 12 then "URL"
      else if k == 13 then "CATEGORIES"
      else if k == 14 then "DESCRIPTION"
      else if k == 15 then "X-RTM-POSTPONE-COUNT"
      else "END";
    assert Rank(name) == k;
    assert |seg| <= 1 && forall l :: l in seg ==> l.name == name;
  }

  predicate SegmentsRanked(segs: seq<seq<ContentLine>>, base: int) {
    forall k :: 0 <= k < |segs| ==> |segs[k]| <= 1 && forall l :: l in segs[k] ==> Rank(l.name) == base + k
  }

  lemma {:induction false} FlattenInFieldOrder(segs: seq<seq<ContentLine>>, base: int)
    requires SegmentsRanked(segs, base)
    ensures InFieldOrder(Flatten(segs))
    ensures forall l :: l in Flatten(segs) ==> base <= Rank(l.name) < base + |segs|
    decreases |segs|
  {
    if |segs| > 0 {
      var rest := segs[1..];
      assert SegmentsRanked(rest, base + 1) by {
        forall k | 0 <= k < |rest| ensures |rest[k]| <= 1 && forall l: ContentLine :: l in rest[k] ==> Rank(l.name) == base + 1 + k {
          assert rest[k] == segs[k + 1];
        }
      }
      FlattenInFieldOrder(rest, base + 1);
      var props := Flatten(segs);
      assert props == segs[0] + Flatten(rest);
      forall l | l in props ensures base <= Rank(l.name) < base + |segs| {
        if l in segs[0] {
        } else {
          assert l in Flatten(rest);
        }
      }
      forall i, j | 0 <= i < j < |props| ensures Rank(props[i].name) < Rank(props[j].name) {
        if i < |segs[0]| {
          assert props[i] in segs[0];
          assert props[j] == Flatten(rest)[j - |segs[0]|];
          assert props[j] in Flatten(rest);
        } else {
          assert props[i] == Flatten(rest)[i - |segs[0]|];
          assert props[j] == Flatten(rest)[j - |segs[0]|];
        }
      }
    }
  }

  lemma AllSegmentsRanked(t: Task, lists: map<string, string>, notesBySeries: map<string, seq<Note>>, clock: Clock)
    ensures SegmentsRanked(Segments(t, lists, notesBySeries, clock), 0)
  {
    var segs := Segments(t, lists, notesBySeries, clock);
    forall k | 0 <= k < |segs|
      ensures |segs[k]| <= 1 && forall l: ContentLine :: l in segs[k] ==> Rank(l.name) == 0 + k
    {
      SegmentRank(k, t, lists, notesBySeries, clock);
    }
  }

  /** With one-line first, second and last segments, the flattening opens and closes with them. */
  lemma FlattenFraming<T>(segs: seq<seq<T>>)
    requires |segs| >= 3 && |segs[0]| == 1 && |segs[1]| == 1 && |segs[|segs| - 1]| == 1
    ensures var f := Flatten(segs);
      |f| >= 3 && f[0] == segs[0][0] && f[1] == segs[1][0] && f[|f| - 1] == segs[|segs| - 1][0]
  {
    var n := |segs|;
    FlattenAppend(segs[..n - 1], segs[n - 1..]);
    assert segs == segs[..n - 1] + segs[n - 1..];
    assert Flatten(segs[n - 1..]) == segs[n - 1] + Flatten(segs[n..]);
    var front := segs[..n - 1];
    assert Flatten(front) == front[0] + (front[1] + Flatten(front[2..])) by {
      assert Flatten(front[1..]) == front[1] + Flatten(front[1..][1..]);
      assert front[1..][1..] == front[2..];
    }
  }

  /**
   * The content lines of one VTODO block (`convert_task_to_vtodo` before the
   * CRLF join): BEGIN first, UID second, END last, properties in emission order.
   */
  function VTodoProps(t: Task, lists: map<string, string>, notesBySeries: map<string, seq<Note>>, clock: Clock): (props: seq<ContentLine>)
    ensures |props| >= 3
    ensures props[0] == ContentLine("BEGIN", false, "VTODO")
    ensures props[1] == ContentLine("UID", false, UidPrefix + t.id)
    ensures props[|props| - 1] == ContentLine("END", false, "VTODO")
    ensures InFieldOrder(props)
  {
    var segs := Segments(t, lists, notesBySeries, clock);
    AllSegmentsRanked(t, lists, notesBySeries, clock);
    FlattenInFieldOrder(segs, 0);
    FlattenFraming(segs);
    Flatten(segs)
  }

  // ----- Locating a property's line within the block -----

  /** A property appears at most once in the block. */
  predicate AtMostOnce(props: seq<ContentLine>, name: string) {
    forall i, j :: 0 <= i < |props| && 0 <= j < |props| && props[i].name == name && props[j].name == name ==> i == j
  }

  lemma InFieldOrderUnique(props: seq<ContentLine>, name: string)
    requires InFieldOrder(props)
    ensures AtMostOnce(props, name)
  {
    forall i, j | 0 <= i < |props| && 0 <= j < |props| && props[i].name == name && props[j].name == name
      ensures i == j
    {
      assert !(i < j) && !(j < i);
    }
  }

  /** Every line of the block comes from the segment of its own property. */
  lemma LineFromSegment(t: Task, lists: map<string, string>, notesBySeries: map<string, seq<Note>>, clock: Clock, l: ContentLine)
    requires l in VTodoProps(t, lists, notesBySeries, clock)
    ensures 0 <= Rank(l.name) < FieldCount
    ensures l in Segment(Rank(l.name), t, lists, notesBySeries, clock)
  {
    var segs := Segments(t, lists, notesBySeries, clock);
    FlattenMember(segs, l);
    var k :| 0 <= k < |segs| && l in segs[k];
    SegmentRank(k, t, lists, notesBySeries, clock);
  }

  /** Every line of every segment is in the block. */
  lemma SegmentLineInBlock(k: nat, t: Task, lists: map<string, string>, notesBySeries: map<string, seq<Note>>, clock: Clock, l: ContentLine)
    requires k < FieldCount
    requires l in Segment(k, t, lists, notesBySeries, clock)
    ensures l in VTodoProps(t, lists, notesBySeries, clock)
  {
    var segs := Segments(t, lists, notesBySeries, clock);
    assert l in segs[k];
    FlattenMember(segs, l);
  }

  /**
   * The property ranked `k` is present exactly when its segment is non-empty,
   * and every line of that name is a line of the segment.
   */
  lemma PropertyOfSegment(k: nat, name: string, t: Task, lists: map<string, string>, notesBySeries: map<string, seq<Note>>, clock: Clock)
    requires k < FieldCount && Rank(name) == k
    requires forall l :: l in Segment(k, t, lists, notesBySeries, clock) ==> l.name == name
    ensures var props := VTodoProps(t, lists, notesBySeries, clock);
      && AtMostOnce(props, name)
      && (HasProperty(props, name) <==> |Segment(k, t, lists, notesBySeries, clock)| > 0)
      && (forall l :: l in props && l.name == name ==> l in Segment(k, t, lists, notesBySeries, clock))
  {
    var props := VTodoProps(t, lists, notesBySeries, clock);
    var seg := Segment(k, t, lists, notesBySeries, clock);
    InFieldOrderUnique(props, name);
    forall l | l in props && l.name == name ensures l in seg {
      LineFromSegment(t, lists, notesBySeries, clock, l);
    }
    if |seg| > 0 {
      SegmentLineInBlock(k, t, lists, notesBySeries, clock, seg[0]);
    }
  }

  // ----- The properties the converter promises -----

  /**
   * Exactly one STATUS line, COMPLETED or NEEDS-ACTION; a COMPLETED line only
   * with COMPLETED status, carrying `date_completed` as a date-time.
   */
  lemma VTodoStatus(t: Task, lists: map<string, string>, notesBySeries: map<string, seq<Note>>, clock: Clock)
    ensures var props := VTodoProps(t, lists, notesBySeries, clock);
      && HasProperty(props, "STATUS") && AtMostOnce(props, "STATUS")
      && (forall l :: l in props && l.name == "STATUS" ==>
            l == ContentLine("STATUS", false, if IsCompleted(t) then "COMPLETED" else "NEEDS-ACTION"))
      && (HasProperty(props, "COMPLETED") <==> IsCompleted(t))
      && (forall l :: l in props && l.name == "COMPLETED" ==>
            !l.dateValue && FormatDateTime(t.dateCompleted, true, clock) == Some(l.value))
  {
    PropertyOfSegment(7, "STATUS", t, lists, notesBySeries, clock);
    PropertyOfSegment(8, "COMPLETED", t, lists, notesBySeries, clock);
  }

  /** A PRIORITY line exactly for P1, P2 and P3, carrying 1, 5 or 9. */
  lemma VTodoPriority(t: Task, lists: map<string, string>, notesBySeries: map<string, seq<Note>>, clock: Clock)
    ensures var props := VTodoProps(t, lists, notesBySeries, clock);
      && AtMostOnce(props, "PRIORITY")
      && (HasProperty(props, "PRIORITY") <==> t.priority.Some? && t.priority.value in {"P1", "P2", "P3"})
      && (forall l :: l in props && l.name == "PRIORITY" ==>
            !l.dateValue && l.value == NatToDecimal(ConvertPriority(t.priority.value)) && ConvertPriority(t.priority.value) > 0)
  {
    PropertyOfSegment(4, "PRIORITY", t, lists, notesBySeries, clock);
  }

  /**
   * DUE and DTSTART are present exactly when their timestamps are set, and both
   * carry `;VALUE=DATE` with an 8-character date exactly when neither has a
   * time of day; otherwise both carry a 15-character date-time. DUE renders
   * `date_due` and DTSTART renders `date_start`, at that shared granularity.
   */
  lemma VTodoGranularity(t: Task, lists: map<string, string>, notesBySeries: map<string, seq<Note>>, clock: Clock)
    ensures var props := VTodoProps(t, lists, notesBySeries, clock);
      var useTime := t.dateDueHasTime || t.dateStartHasTime;
      && (HasProperty(props, "DUE") <==> IsSetInt(t.dateDue))
      && (HasProperty(props, "DTSTART") <==> IsSetInt(t.dateStart))
      && (forall l :: l in props && (l.name == "DUE" || l.name == "DTSTART") ==>
            l.dateValue == !useTime && IsStamp(l.value, useTime))
      && (forall l :: l in props && l.name == "DUE" ==> FormatDateTime(t.dateDue, useTime, clock) == Some(l.value))
      && (forall l :: l in props && l.name == "DTSTART" ==> FormatDateTime(t.dateStart, useTime, clock) == Some(l.value))
  {
    var props := VTodoProps(t, lists, notesBySeries, clock);
    DateLineProperty(5, "DUE", t.dateDue, t, lists, notesBySeries, clock, props);
    DateLineProperty(6, "DTSTART", t.dateStart, t, lists, notesBySeries, clock, props);
  }

  /** The DUE or DTSTART line, at the block's shared granularity. */
  lemma DateLineProperty(k: nat, name: string, ts: Option<int>, t: Task, lists: map<string, string>,
                         notesBySeries: map<string, seq<Note>>, clock: Clock, props: seq<ContentLine>)
    requires (k == 5 && name == "DUE" && ts == t.dateDue) || (k == 6 && name == "DTSTART" && ts == t.dateStart)
    requires props == VTodoProps(t, lists, notesBySeries, clock)
    ensures HasProperty(props, name) <==> IsSetInt(ts)
    ensures forall l :: l in props && l.name == name ==>
      && l.dateValue == !UseTime(t) && IsStamp(l.value, UseTime(t))
      && FormatDateTime(ts, UseTime(t), clock) == Some(l.value)
  {
    assert Segment(k, t, lists, notesBySeries, clock) == DateSegment(name, ts, UseTime(t), clock);
    PropertyOfSegment(k, name, t, lists, notesBySeries, clock);
  }

  /**
   * Property `name` is present exactly when `ts` is set, and is the date-time
   * rendering of `ts`, without `;VALUE=DATE`.
   */
  predicate DateTimeProperty(props: seq<ContentLine>, name: string, ts: Option<int>, clock: Clock) {
    && (HasProperty(props, name) <==> IsSetInt(ts))
    && (forall l :: l in props && l.name == name ==> !l.dateValue && FormatDateTime(ts, true, clock) == Some(l.value))
  }

  lemma CreatedProperty(t: Task, lists: map<string, string>, notesBySeries: map<string, seq<Note>>, clock: Clock)
    ensures DateTimeProperty(VTodoProps(t, lists, notesBySeries, clock), "CREATED", t.dateCreated, clock)
  {
    PropertyOfSegment(9, "CREATED", t, lists, notesBySeries, clock);
  }

  lemma LastModifiedProperty(t: Task, lists: map<string, string>, notesBySeries: map<string, seq<Note>>, clock: Clock)
    ensures DateTimeProperty(VTodoProps(t, lists, notesBySeries, clock), "LAST-MODIFIED", t.dateModified, clock)
  {
    PropertyOfSegment(10, "LAST-MODIFIED", t, lists, notesBySeries, clock);
  }

  /** CREATED and LAST-MODIFIED are present exactly when set, rendering `date_created` and `date_modified` as date-times. */
  lemma VTodoCreatedModified(t: Task, lists: map<string, string>, notesBySeries: map<string, seq<Note>>, clock: Clock)
    ensures DateTimeProperty(VTodoProps(t, lists, notesBySeries, clock), "CREATED", t.dateCreated, clock)
    ensures DateTimeProperty(VTodoProps(t, lists, notesBySeries, clock), "LAST-MODIFIED", t.dateModified, clock)
  {
    CreatedProperty(t, lists, notesBySeries, clock);
    LastModifiedProperty(t, lists, notesBySeries, clock);
  }

  /** RELATED-TO names the parent's UID exactly when `parent_id` is set; no check that the parent exists. */
  lemma VTodoRelatedTo(t: Task, lists: map<string, string>, notesBySeries: map<string, seq<Note>>, clock: Clock)
    ensures var props := VTodoProps(t, lists, notesBySeries, clock);
      && (HasProperty(props, "RELATED-TO") <==> IsSetText(t.parentId))
      && (forall l :: l in props && l.name == "RELATED-TO" ==> !l.dateValue && l.value == UidPrefix + t.parentId.value)
  {
    PropertyOfSegment(2, "RELATED-TO", t, lists, notesBySeries, clock);
  }

  /** The text SUMMARY stands for: the placeholder only for a missing key, empty for null. */
  function TitleText(name: Field<string>): string {
    match name
    case Missing => UntitledTask
    case Null => ""
    case Present(s) => s
  }

  /** Exactly one SUMMARY line, whose value decodes to the task's title. */
  lemma VTodoSummary(t: Task, lists: map<string, string>, notesBySeries: map<string, seq<Note>>, clock: Clock)
    ensures var props := VTodoProps(t, lists, notesBySeries, clock);
      && HasProperty(props, "SUMMARY") && AtMostOnce(props, "SUMMARY")
      && (forall l :: l in props && l.name == "SUMMARY" ==> !l.dateValue && DecodeText(l.value) == Some(TitleText(t.name)))
  {
    PropertyOfSegment(3, "SUMMARY", t, lists, notesBySeries, clock);
    EscapeRoundTrip(TitleText(t.name));
    assert EscapeText(Title(t.name)) == EscapeText(Some(TitleText(t.name)));
  }

  /** RRULE passes the repeat rule through verbatim; URL decodes to the task's URL. */
  lemma VTodoRuleAndUrl(t: Task, lists: map<string, string>, notesBySeries: map<string, seq<Note>>, clock: Clock)
    ensures var props := VTodoProps(t, lists, notesBySeries, clock);
      && (HasProperty(props, "RRULE") <==> IsSetText(t.repeat))
      && (forall l :: l in props && l.name == "RRULE" ==> !l.dateValue && l.value == t.repeat.value)
      && (HasProperty(props, "URL") <==> IsSetText(t.url))
      && (forall l :: l in props && l.name == "URL" ==> !l.dateValue && DecodeText(l.value) == Some(t.url.value))
  {
    PropertyOfSegment(11, "RRULE", t, lists, notesBySeries, clock);
    PropertyOfSegment(12, "URL", t, lists, notesBySeries, clock);
    if IsSetText(t.url) {
      EscapeRoundTrip(t.url.value);
    }
  }

  /**
   * CATEGORIES is present exactly when the task has tags or a resolvable list,
   * and its value decodes to the tags in order followed by the list name.
   */
  lemma VTodoCategories(t: Task, lists: map<string, string>, notesBySeries: map<string, seq<Note>>, clock: Clock)
    ensures var props := VTodoProps(t, lists, notesBySeries, clock);
      var resolved := t.listId != "" && t.listId in lists;
      var expected := t.tags + if resolved then [lists[t.listId]] else [];
      && AtMostOnce(props, "CATEGORIES")
      && (HasProperty(props, "CATEGORIES") <==> |t.tags| > 0 || resolved)
      && (forall l :: l in props && l.name == "CATEGORIES" ==> !l.dateValue && DecodeTextList(l.value) == Some(expected))
  {
    PropertyOfSegment(13, "CATEGORIES", t, lists, notesBySeries, clock);
    var cats := Categories(t, lists);
    if |cats| > 0 {
      DecodeEscapedList(cats);
    }
  }

  /**
   * DESCRIPTION is present exactly when the task's series has a note with set
   * content, and its value decodes to the set contents of that series' notes,
   * in arrival order (NoteTextsSingle, NoteTextsAppend), joined by a blank line.
   */
  lemma VTodoDescription(t: Task, lists: map<string, string>, notesBySeries: map<string, seq<Note>>, clock: Clock)
    ensures var props := VTodoProps(t, lists, notesBySeries, clock);
      && AtMostOnce(props, "DESCRIPTION")
      && (HasProperty(props, "DESCRIPTION") <==>
            t.seriesId != "" && t.seriesId in notesBySeries
            && exists i :: 0 <= i < |notesBySeries[t.seriesId]| && IsSetText(notesBySeries[t.seriesId][i].content))
      && (forall l :: l in props && l.name == "DESCRIPTION" ==>
            && t.seriesId in notesBySeries
            && !l.dateValue && DecodeText(l.value) == Some(Join("\n\n", NoteTexts(notesBySeries[t.seriesId]))))
  {
    PropertyOfSegment(14, "DESCRIPTION", t, lists, notesBySeries, clock);
    EscapeRoundTrip(Join("\n\n", DescriptionParts(t, notesBySeries)));
  }

  /** An `X-` vendor property name. */
  predicate IsExtensionName(name: string) {
    |name| >= 2 && name[0] == 'X' && name[1] == '-'
  }

  /** The only vendor line is X-RTM-POSTPONE-COUNT, present exactly when `postponed` is set. */
  lemma VTodoVendor(t: Task, lists: map<string, string>, notesBySeries: map<string, seq<Note>>, clock: Clock)
    ensures var props := VTodoProps(t, lists, notesBySeries, clock);
      && (forall l :: l in props && IsExtensionName(l.name) ==> l.name == "X-RTM-POSTPONE-COUNT")
      && (HasProperty(props, "X-RTM-POSTPONE-COUNT") <==> IsSetInt(t.postponed))
      && (forall l :: l in props && l.name == "X-RTM-POSTPONE-COUNT" ==> !l.dateValue && l.value == IntToDecimal(t.postponed.value))
  {
    var props := VTodoProps(t, lists, notesBySeries, clock);
    PropertyOfSegment(15, "X-RTM-POSTPONE-COUNT", t, lists, notesBySeries, clock);
    forall l | l in props && IsExtensionName(l.name) ensures l.name == "X-RTM-POSTPONE-COUNT" {
      LineFromSegment(t, lists, notesBySeries, clock, l);
    }
  }

  // ----- Rendering and CRLF framing -----

  /** The three fields emitted without escaping hold no line break. */
  predicate NoRawLineBreaks(t: Task) {
    && '\n' !in t.id
    && (t.parentId.Some? ==> '\n' !in t.parentId.value)
    && (t.repeat.Some? ==> '\n' !in t.repeat.value)
  }

  lemma DigitsNoLineBreak(s: string)
    requires AllDigits(s)
    ensures '\n' !in s
  {
  }

  lemma StampNoLineBreak(s: string, hasTime: bool)
    requires IsStamp(s, hasTime)
    ensures '\n' !in s
  {
    if hasTime {
      DigitsNoLineBreak(s[..8]);
      DigitsNoLineBreak(s[9..]);
      assert s == s[..8] + [s[8]] + s[9..];
    } else {
      DigitsNoLineBreak(s);
    }
  }

  lemma {:induction false} JoinNoLineBreak(sep: string, parts: seq<string>)
    requires '\n' !in sep
    requires forall i :: 0 <= i < |parts| ==> '\n' !in parts[i]
    ensures '\n' !in Join(sep, parts)
    decreases |parts|
  {
    if |parts| > 1 {
      JoinNoLineBreak(sep, parts[1..]);
    }
  }

  /** No rendered line of `seg` contains a raw line break. */
  predicate CleanLines(seg: seq<ContentLine>) {
    forall l :: l in seg ==> '\n' !in Render(l)
  }

  lemma LineClean(name: string, dateValue: bool, value: string)
    requires '\n' !in name && '\n' !in value
    ensures CleanLines([ContentLine(name, dateValue, value)])
  {
    var l := ContentLine(name, dateValue, value);
    var r := Render(l);
    RenderParts(l, r);
    var q := if dateValue then 11 else 0;
    forall i | 0 <= i < |r| ensures r[i] != '\n' {
      if i < |name| {
        assert r[i] == r[..|name|][i];
      } else if i < |name| + q {
        assert r[i] == r[|name|..|name| + q][i - |name|];
      } else if i > |name| + q {
        assert r[i] == r[|name| + q + 1..][i - |name| - q - 1];
      }
    }
  }

  lemma DateSegmentClean(name: string, ts: Option<int>, useTime: bool, clock: Clock)
    requires '\n' !in name
    ensures CleanLines(DateSegment(name, ts, useTime, clock))
  {
    var r := FormatDateTime(ts, useTime, clock);
    if r.Some? {
      StampNoLineBreak(r.value, useTime);
      LineClean(name, !useTime, r.value);
    }
  }

  lemma SummaryClean(t: Task, lists: map<string, string>, notesBySeries: map<string, seq<Note>>, clock: Clock)
    ensures CleanLines(Segment(3, t, lists, notesBySeries, clock))
  {
    EscapeNoLineBreak(TitleText(t.name));
    assert EscapeText(Title(t.name)) == EscapeEach(TitleText(t.name));
    LineClean("SUMMARY", false, EscapeText(Title(t.name)));
  }

  lemma PriorityClean(t: Task, lists: map<string, string>, notesBySeries: map<string, seq<Note>>, clock: Clock)
    ensures CleanLines(Segment(4, t, lists, notesBySeries, clock))
  {
    if IsSetText(t.priority) && ConvertPriority(t.priority.value) > 0 {
      var v := NatToDecimal(ConvertPriority(t.priority.value));
      DigitsNoLineBreak(v);
      LineClean("PRIORITY", false, v);
    }
  }

  lemma UrlClean(t: Task, lists: map<string, string>, notesBySeries: map<string, seq<Note>>, clock: Clock)
    ensures CleanLines(Segment(12, t, lists, notesBySeries, clock))
  {
    if IsSetText(t.url) {
      EscapeNoLineBreak(t.url.value);
      LineClean("URL", false, EscapeText(t.url));
    }
  }

  lemma CategoriesClean(t: Task, lists: map<string, string>, notesBySeries: map<string, seq<Note>>, clock: Clock)
    ensures CleanLines(Segment(13, t, lists, notesBySeries, clock))
  {
    var cats := Categories(t, lists);
    if |cats| > 0 {
      JoinedListClean(cats);
      LineClean("CATEGORIES", false, Join(",", EscapeList(cats)));
    }
  }

  /** The comma-joined escaped elements hold no line break. */
  lemma JoinedListClean(cats: seq<string>)
    ensures '\n' !in Join(",", EscapeList(cats))
  {
    var escaped := EscapeList(cats);
    forall i | 0 <= i < |escaped| ensures '\n' !in escaped[i] {
      EscapeNoLineBreak(cats[i]);
    }
    JoinNoLineBreak(",", escaped);
  }

  lemma DescriptionClean(t: Task, lists: map<string, string>, notesBySeries: map<string, seq<Note>>, clock: Clock)
    ensures CleanLines(Segment(14, t, lists, notesBySeries, clock))
  {
    var parts := DescriptionParts(t, notesBySeries);
    if |parts| > 0 {
      EscapeNoLineBreak(Join("\n\n", parts));
      LineClean("DESCRIPTION", false, EscapeText(Some(Join("\n\n", parts))));
    }
  }

  lemma IntNoLineBreak(i: int)
    ensures '\n' !in IntToDecimal(i)
  {
    if i < 0 {
      DigitsNoLineBreak(NatToDecimal(-i));
    } else {
      DigitsNoLineBreak(NatToDecimal(i));
    }
  }

  lemma VendorClean(t: Task, lists: map<string, string>, notesBySeries: map<string, seq<Note>>, clock: Clock)
    ensures CleanLines(Segment(15, t, lists, notesBySeries, clock))
  {
    if IsSetInt(t.postponed) {
      IntNoLineBreak(t.postponed.value);
      LineClean("X-RTM-POSTPONE-COUNT", false, IntToDecimal(t.postponed.value));
    }
  }

  /** Every line of every segment renders without a line break. */
  lemma SegmentNoLineBreak(k: nat, t: Task, lists: map<string, string>, notesBySeries: map<string, seq<Note>>, clock: Clock)
    requires k < FieldCount
    requires NoRawLineBreaks(t)
    ensures CleanLines(Segment(k, t, lists, notesBySeries, clock))
  {
    if k == 0 {
      LineClean("BEGIN", false, "VTODO");
    } else if k == 1 {
      LineClean("UID", false, Uid(t.id));
    } else if k == 2 {
      if IsSetText(t.parentId) {
        LineClean("RELATED-TO", false, Uid(t.parentId.value));
      }
    } else if k == 3 {
      SummaryClean(t, lists, notesBySeries, clock);
    } else if k == 4 {
      PriorityClean(t, lists, notesBySeries, clock);
    } else if k == 5 {
      DateSegmentClean("DUE", t.dateDue, UseTime(t), clock);
    } else if k == 6 {
      DateSegmentClean("DTSTART", t.dateStart, UseTime(t), clock);
    } else if k == 7 {
      LineClean("STATUS", false, if IsCompleted(t) then "COMPLETED" else "NEEDS-ACTION");
    } else if k == 8 {
      DateSegmentClean("COMPLETED", t.dateCompleted, true, clock);
    } else if k == 9 {
      DateSegmentClean("CREATED", t.dateCreated, true, clock);
    } else if k == 10 {
      DateSegmentClean("LAST-MODIFIED", t.dateModified, true, clock);
    } else if k == 11 {
      if t.repeat.Some? {
        LineClean("RRULE", false, t.repeat.value);
      }
    } else if k == 12 {
      UrlClean(t, lists, notesBySeries, clock);
    } else if k == 13 {
      CategoriesClean(t, lists, notesBySeries, clock);
    } else if k == 14 {
      DescriptionClean(t, lists, notesBySeries, clock);
    } else if k == 15 {
      VendorClean(t, lists, notesBySeries, clock);
    } else {
      LineClean("END", false, "VTODO");
    }
  }

  lemma PropsNoLineBreak(t: Task, lists: map<string, string>, notesBySeries: map<string, seq<Note>>, clock: Clock)
    ensures var props := VTodoProps(t, lists, notesBySeries, clock);
      NoRawLineBreaks(t) ==> forall i :: 0 <= i < |props| ==> '\n' !in Render(props[i])
  {
    var props := VTodoProps(t, lists, notesBySeries, clock);
    if NoRawLineBreaks(t) {
      forall i | 0 <= i < |props| ensures '\n' !in Render(props[i]) {
        LineFromSegment(t, lists, notesBySeries, clock, props[i]);
        SegmentNoLineBreak(Rank(props[i].name), t, lists, notesBySeries, clock);
      }
    }
  }

  /** The lines of the block as text, `NAME:value` or `NAME;VALUE=DATE:value`. */
  function VTodoLines(t: Task, lists: map<string, string>, notesBySeries: map<string, seq<Note>>, clock: Clock): (lines: seq<string>)
    ensures |lines| >= 3
    ensures lines[0] == "BEGIN:VTODO"
    ensures lines[1] == "UID:rtm-" + t.id
    ensures lines[|lines| - 1] == "END:VTODO"
    ensures NoRawLineBreaks(t) ==> forall i :: 0 <= i < |lines| ==> '\n' !in lines[i]
  {
    var props := VTodoProps(t, lists, notesBySeries, clock);
    PropsNoLineBreak(t, lists, notesBySeries, clock);
    FramingRendered(t.id);
    RenderAll(props)
  }

  /** The rendered text of the BEGIN, UID and END lines. */
  lemma FramingRendered(id: string)
    ensures Render(ContentLine("BEGIN", false, "VTODO")) == "BEGIN:VTODO"
    ensures Render(ContentLine("UID", false, UidPrefix + id)) == "UID:rtm-" + id
    ensures Render(ContentLine("END", false, "VTODO")) == "END:VTODO"
  {
  }

  /**
   * The block's text holds the line `SUMMARY:<value>`, whose value decodes to
   * the task's title.
   */
  lemma VTodoSummaryText(t: Task, lists: map<string, string>, notesBySeries: map<string, seq<Note>>, clock: Clock)
    ensures var lines := VTodoLines(t, lists, notesBySeries, clock);
      exists i, v :: 0 <= i < |lines| && lines[i] == "SUMMARY:" + v && DecodeText(v) == Some(TitleText(t.name))
  {
    var props := VTodoProps(t, lists, notesBySeries, clock);
    var lines := VTodoLines(t, lists, notesBySeries, clock);
    VTodoSummary(t, lists, notesBySeries, clock);
    var l :| l in props && l.name == "SUMMARY";
    var i :| 0 <= i < |props| && props[i] == l;
    var r := Render(l);
    RenderParts(l, r);
    assert r[..7] == "SUMMARY" && r[7] == ':';
    assert r == "SUMMARY:" + l.value by {
      assert r == r[..7] + [r[7]] + r[8..];
    }
    assert lines[i] == "SUMMARY:" + l.value;
  }

  /**
   * `convert_task_to_vtodo`: the lines joined with CRLF. When the verbatim fields
   * hold no line break, splitting the block at CRLF gives back exactly its lines.
   */
  function VTodoBlock(t: Task, lists: map<string, string>, notesBySeries: map<string, seq<Note>>, clock: Clock): (block: string)
    ensures NoRawLineBreaks(t) ==> SplitCrlf(block) == VTodoLines(t, lists, notesBySeries, clock)
  {
    var lines := VTodoLines(t, lists, notesBySeries, clock);
    if NoRawLineBreaks(t) then
      SplitJoin(lines);
      Join(CRLF, lines)
    else
      Join(CRLF, lines)
  }
}

=== FILE: wrappers.dfy ===
/** Optional values: a record field that may be absent. */
module Wrappers {

  datatype Option<+T> = None | Some(value: T)
}
